=== FILE: README.md ===
# crypto-futures-bot decision logic in Dafny

The repository is a family of near-duplicate Telegram bots for MEXC USDT-margined
perpetual futures. Remove the exchange and chat plumbing and the bots share one
set of decisions, which this project models over exact `real` values:

- which symbols are scanned: top-N by quote volume, or the top movers;
- how they are cut into batches, and where the pauses go;
- how a failing candle fetch is retried;
- the indicators on a candle series: the non-adjusted EMA and the 5/3/3 stochastic;
- the closed-candle conditions: tolerance touch, trend, candle-activity
  filters, EMA slope, higher-timeframe bias, and stochastic overbought/oversold;
- the per-symbol scan step and its `stats` counters;
- the per-symbol alert cooldown and the watchlist commands;
- the windowed support/resistance extrema.

Modules, in dependency order:

| module | file | models |
|---|---|---|
| `Wrappers` | wrappers.dfy | `Option` (pandas NaN, a failed fetch) and `Result` (a raised exception) |
| `Seqs` | seqs.dfy | sequence helpers: filter, select-and-map, flatten, min/max, last two |
| `Floats` | floats.dfy | numpy float division, where a zero divisor gives ±inf or NaN |
| `Market` | market.dfy | candles, the closed candle `iloc[-2]`, Python truthiness of a fetch, `sym.split("/")[0]`, timeframes |
| `Ordering` | ordering.dfy | the stable descending sort by a real key; `sorted(set(...))` on strings |
| `Ranking` | ranking.dfy | `get_top_volume_symbols` (three copies) and `get_top_movers` |
| `Batching` | batching.dfy | the three batch-partition rules and the inter-batch pause schedules |
| `Retry` | retry.dfy | `safe_fetch`: at most three attempts over a scripted list of outcomes |
| `Ema` | ema.dfy | `ewm(span, adjust=False).mean()` |
| `Stochastic` | stochastic.dfy | `calc_stochastic`, `stochastic_overbought`/`_oversold`, and stoch.py's per-(symbol, timeframe) results |
| `Conditions` | conditions.dfy | closed-candle row, touch, trend, activity/strict filters, EMA slope, HTF bias |
| `EmaScan` | emascan.dfy | the `scan_batch` step and its fold in pencaricoin.py, signalmonitor.py and pencaripercobaan.py |
| `Cooldown` | cooldown.dfy | the last-fired table: `>= 300` in percobaan.py, `> 900` in bot/signals.py |
| `Watchlist` | watchlist.dfy | `/addcoin` and `/delcoin` |
| `Monitor` | monitor.dfy | percobaan.py's `ema_touch` and monitor pass; bot/signals.py's `check_signal` and alert step |
| `Levels` | levels.dfy | `calc_support_resistance` |

The model makes these choices:

- A fetch is represented by its outcome: `Option<seq<Candle>>`, or `None` when the
  call gave up or raised. Every scan takes the fetch as a function parameter
  (`Fetcher`), so "what the exchange returned" is universally quantified.
- The wall clock is a parameter `now`. Sleeps are modelled only as `Pause` steps in
  a schedule.
- A ticker map is a sequence of tickers with distinct symbols. Its order is
  Python's dict order, which the stable sort keeps for equal volumes.

Where the repository's prose and its code disagree, the model follows the code:

- The top-N ties keep ticker order. They are not re-sorted by symbol name.
- pencaricoin.py and signalmonitor.py always build four batches, because the
  range runs over `TOP_N` and not over `len(symbols)`. When fewer than 200
  symbols are listed, the trailing batches are short or empty.
- Both cooldown tables are keyed by the symbol alone, not by (symbol, condition).
  So an EMA150 touch and an EMA200 touch within 300 s give one alert.
- percobaan.py tests the still-forming last row, with no tolerance band. The
  other EMA scanners test the closed row `iloc[-2]`.

## Model

| member | source | states |
|---|---|---|
| Market.BaseAsset | pencaricoin.py:106 | the base asset is the prefix of the symbol up to its first `/`, has no `/`, and is followed by `/` whenever it is shorter than the symbol |
| Floats.Div | pencaricoin.py:127-129 | numpy division: the exact quotient for a non-zero divisor; for a zero divisor +inf, -inf or NaN according to the sign of the numerator |
| Floats.LessQuotient | pencaricoin.py:133 | for a positive close, `x / close < t` holds exactly when `x < t * close` |
| Ordering.SortDesc | pencaricoin.py:98 | `sort(key=…, reverse=True)`: a permutation of the input (same multiset, same length) whose keys are non-increasing |
| Ordering.SortedSet | pencaripercobaan.py:158-159 | `sorted(set(…))`: strictly increasing, no duplicates, and exactly the members of the input |
| Ranking.TopVolumeSymbols | pencaricoin.py:92-99 | the result has `min(n, #eligible)` entries; every entry ends in `/USDT:USDT` with a present non-zero volume; no duplicates; volumes are non-increasing; every eligible symbol left out has volume at most that of each returned one (also signalmonitor.py:116-124, stoch.py:103-116) |
| Ranking.CandidatesExact | pencaricoin.py:95-97 | a `(symbol, volume)` pair is collected exactly when the ticker for that symbol is eligible with that volume |
| Ranking.CandidatesDistinct | pencaricoin.py:95-97 | the collected pairs have distinct symbols, because the ticker map has distinct keys |
| Ranking.TopComplete | pencaricoin.py:98-99 | every eligible ticker that is cut off has volume at most that of each kept entry |
| Ranking.TopVolumeOrEmpty | pencaripercobaan.py:83-100 | a raising `fetch_tickers` gives `[]`; otherwise the same top-N selection |
| Ranking.Kept | bot/scanner.py:18-25 | one row per ticker whose percentage is present, non-zero and at least 3 in absolute value |
| Ranking.KeptMembers | bot/scanner.py:18-25 | a row is kept exactly when it is `(symbol, pct, quoteVolume or 0)` of some ticker whose percentage passes the threshold |
| Ranking.ToMover | bot/scanner.py:24 | a missing volume is read as 0 |
| Ranking.TopMovers | bot/scanner.py:14-36 | at most `min(10, 30, #kept)` rows (exactly that many); empty when nothing is kept; ordered by change, highest first; every row is a kept row with fewer than 30 kept rows of strictly higher volume; no row of the volume top 30 that is left out has a higher change than a returned one |
| Batching.FixedBatches | pencaricoin.py:234 | `ceil(TOP_N / BATCH_SIZE)` batches, whatever the list's length; each has at most BATCH_SIZE symbols; they concatenate back to the list whenever it has at most TOP_N symbols |
| Batching.FixedGridHasFourBatches | pencaricoin.py:234 | with TOP_N 200 and BATCH_SIZE 50 there are always exactly TOTAL_BATCH = 4 batches |
| Batching.HundredTwentySymbols | pencaricoin.py:234 | 120 listed symbols give batches of sizes 50, 50, 20 and 0 |
| Batching.Chunks | stoch.py:142-145 | for a positive step, the chunks are non-empty, at most `step` long, `ceil(len / step)` in number, and concatenate to the input |
| Batching.CeilBatches | stoch.py:140-145 | the batch list fails (zero `range` step) exactly when the symbol list is empty; otherwise 1 to 6 non-empty batches that concatenate to the list |
| Batching.SplitTwo | pencaripercobaan.py:151-152 | `symbols[:50]` and `symbols[50:]` concatenate to the list; the first has `min(50, len)` entries; the two are disjoint when the list has no duplicates |
| Batching.GuardedScheduleAlternates | signalmonitor.py:235-241 | with the pause guarded by `i < TOTAL_BATCH`, batches 1..n alternate with pauses: n - 1 pauses, and the run ends on batch n (the same rule at stoch.py:178-179) |
| Batching.SignalMonitorPauses | signalmonitor.py:231-241 | on the four-batch grid the run pauses three times and ends on the last batch |
| Batching.TwoBatchScheduleIsGuarded | pencaripercobaan.py:154-156 | the two-batch scan pauses exactly once, between its batches: the guarded schedule over two batches |
| Batching.PencaricoinPausesAfterLastBatch | pencaricoin.py:239-250 | as written, the 4-batch run ends with a pause after batch 4, four pauses in all |
| Batching.PencaricoinSchedule | pencaricoin.py:239-250 | corrected schedule: 2n - 1 steps, n - 1 pauses, ending on batch n |
| Retry.SafeFetch | pencaricoin.py:70-82 | 1 to 3 attempts; `None` exactly when none of the three attempts returned; otherwise the value of the first attempt that returned, after exactly the failures before it; one 2 s backoff per failed attempt; nothing propagates |
| Retry.TryFromFindsFirst | pencaricoin.py:72-77 | the loop stops at the first returning attempt |
| Retry.FailTwiceThenSucceed | pencaricoin.py:72-80 | two raises and then a value: the value, after 3 attempts and 2 backoffs |
| Ema.Alpha | pencaricoin.py:86 | `2 / (span + 1)` lies in (0, 1] for every span of at least 1 |
| Ema.EmaAt | pencaricoin.py:85-89 | each EMA value lies between the minimum and the maximum of the closes up to its index |
| Ema.EmaColumn | pencaricoin.py:85-89 | the forward pass has one value per close, starts at `close[0]`, satisfies `ema[i] = α·close[i] + (1−α)·ema[i−1]`, and stays within the closes seen so far |
| Ema.EmaCausal | pencaricoin.py:124-125 | the EMA at an index does not depend on later closes, so the forming candle does not move the closed candle's EMA |
| Ema.EmaOfConstant | pencaricoin.py:85-89 | a constant series is its own EMA |
| Stochastic.RawOnWindow | stoch.py:59-62 | a defined %K_raw on well-formed candles lies in [0, 100]; a flat window is undefined |
| Stochastic.KRawAt | stoch.py:59-62 | %K_raw is undefined before the first full k-window, and in [0, 100] where defined on well-formed candles |
| Stochastic.RollingMeanAt | stoch.py:63-64 | a rolling mean is defined exactly when its window is full and every value in it is defined |
| Stochastic.RollingMeanPercent | stoch.py:63-64 | a rolling mean of values in [0, 100] stays in [0, 100] |
| Stochastic.StochasticInRange | stoch.py:58-66 | on well-formed candles every defined %K_raw, %K and %D lies in [0, 100] |
| Stochastic.OverboughtOn | stoch.py:68-83 | a hit needs at least 20 rows, a defined K2, D2 and K3, K2 > 83, D2 > 83 and K2 < K3; an overbought frame is never oversold |
| Stochastic.OversoldOn | stoch.py:85-100 | a hit needs at least 20 rows, a defined K2, D2 and K3, K2 < 10, D2 < 10 and K2 > K3 |
| Stochastic.MomentumTurnScenario | stoch.py:79-83 | %K 90, 88 with %D 85 fires on the closed 88; once 70 closes, the same frame no longer fires |
| Stochastic.ShortFramesNeverSignal | stoch.py:69-70 | a frame of fewer than 20 rows is neither overbought nor oversold |
| Stochastic.LinesCausal | stoch.py:58-64 | %K and %D at an index depend only on the candles up to that index |
| Stochastic.DecisionsReadClosedRows | stoch.py:72-74 | the decisions read only K2, D2 and K3 |
| Stochastic.FormingCandleIgnored | stoch.py:72-74 | replacing the still-forming last candle changes neither decision |
| Stochastic.HitsMembers | stoch.py:155-169 | a base asset is listed for (timeframe, extreme) exactly when one of its pairs was fetched for that timeframe and signals |
| Stochastic.HitsAppend | stoch.py:152-169 | results accumulated over a concatenation are the two parts' results concatenated |
| Stochastic.BatchesScanLikeFlatList | stoch.py:152-172 | scanning batch by batch lists exactly what one pass over the flattened batches lists |
| Stochastic.TimeframesIsolated | stoch.py:158-172 | a timeframe's results depend only on the frames fetched for that timeframe |
| Stochastic.FailedPairIsolated | stoch.py:159-172 | a pair whose fetch raises contributes nothing, and every other symbol's results are unchanged |
| Conditions.ClosedRow | pencaricoin.py:124-125 | the row read is candle `len - 2`; each EMA on it lies within the range of the closes up to it |
| Conditions.Touches | pencaricoin.py:156-169 | an EMA inside the candle's range touches; a touch lies within the range widened by `close * 0.001`; on a candle with low ≤ high, a touch happens exactly when the EMA's distance to the range is at most the tolerance |
| Conditions.ActiveCandle | pencaricoin.py:145-149 | for a positive close, the normal filter passes exactly when range ≥ 0.003·close and body ≥ 0.0015·close |
| Conditions.StrictCandle | pencaricoin.py:132-144 | for a positive close, the strict filter passes exactly when range ≥ 0.006·close, body ≥ 0.003·close and EMA gap ≥ 0.002·close |
| Conditions.StrictImpliesActive | pencaricoin.py:132-149 | every candle that passes the strict filter passes the normal one |
| Conditions.FlatZeroCandlePasses | pencaricoin.py:127-149 | an all-zero candle passes both filters, because NaN comparisons are false |
| Conditions.EmaSlopeOk | signalmonitor.py:87-89 | for a non-zero `s[len-5]`, the slope passes exactly when `abs(s[len-2] − s[len-5]) ≥ 0.0002·abs(s[len-5])` |
| Conditions.HtfBiasAsWritten | signalmonitor.py:92-113 | raises IndexError exactly when both fetches are usable and one of them is a single candle |
| Conditions.HtfBias | signalmonitor.py:92-113 | corrected bias: a direction exactly when both frames have a closed candle and both closes lie strictly on that side of their EMA200; otherwise none |
| Conditions.HtfBiasAgrees | signalmonitor.py:105-113 | whenever the bias as written does not raise, it equals the corrected bias |
| Conditions.SingleCandleHtfRaises | signalmonitor.py:105-106 | a one-candle 15m frame raises as written; the corrected bias is none |
| EmaScan.Record | pencaricoin.py:131-172 | a skip changes nothing; a filter adds exactly 1 to `filtered` and nothing else; a scan adds 1 to `scanned` and to exactly one of bullish/bearish; each line's list gains the entry `"{base} ({trend})"` exactly when the scanned symbol touches that line, and is otherwise unchanged; the counters stay consistent |
| EmaScan.ScanSymbols | pencaricoin.py:105-178 | every symbol is skipped, filtered or scanned, and the counters stay consistent (bullish + bearish = scanned, each line counter = list length) |
| EmaScan.ScanLists | pencaricoin.py:151-172 | after a scan, each line's list is the earlier list followed by one entry per scanned symbol touching that line, in scan order |
| EmaScan.BatchesScanLikeFlatList | pencaricoin.py:239-243 | accumulating the batches' lists gives one pass over the concatenated batches |
| EmaScan.Classify | pencaricoin.py:151-172 | bullish exactly when ema150 > ema200 (ties are bearish); each line's flag is that line's own tolerance-band touch test, so an EMA inside the candle's range always touches |
| EmaScan.CoinOutcome | pencaricoin.py:109-149 | skipped exactly when the fetch is unusable or has fewer than 255 candles; filtered exactly when the mode's filter fails on the closed row |
| EmaScan.CoinScan | pencaricoin.py:233-243 | the four-batch run totals equal one pass over the top 200 symbols, with consistent counters |
| EmaScan.CoinScanLists | pencaricoin.py:151-172 | each reported line's list holds, in scan order, one entry per top-200 symbol that passes the filters and touches that line; an entry is listed exactly when such a symbol produced it |
| EmaScan.Summarize | pencaricoin.py:264-278 | each reported list is strictly sorted and has exactly the members of its collected list |
| EmaScan.CoinReport | pencaricoin.py:254-278 | the no-signal reply is sent exactly when all three lists are empty; otherwise the reply is the sorted summary of all three lists |
| EmaScan.MonitorOutcome | signalmonitor.py:133-177 | no bias: filtered; with a bias: skipped exactly on an unusable or short fetch, then filtered exactly when activity, EMA200 slope or trend agreement fails; a scanned trend equals the bias |
| EmaScan.FiveMinuteReadOnlyWithBias | signalmonitor.py:133-140 | a symbol without bias is filtered whatever its 5m fetch holds; two exchanges that agree on every symbol's 15m and 1h frames, and on the 5m frames of the biased symbols, give the same scan |
| EmaScan.NoCountertrend | signalmonitor.py:169-177 | bullish grows by at most the number of bullish-biased symbols, and bearish by at most the number of bearish-biased ones |
| EmaScan.MonitorScan | signalmonitor.py:230-239 | the four-batch run equals one pass over the top 200 symbols, with consistent counters |
| EmaScan.MonitorScanLists | signalmonitor.py:157-177 | an entry is in a line's list exactly when some top-200 symbol with a bias passes the filters, touches that line and produces it, and its trend equals the bias |
| EmaScan.MonitorScanAsWritten | signalmonitor.py:130-136 | the loop as written stops at the first raising bias; a completed run keeps the counters consistent |
| EmaScan.AsWrittenAgreesWithoutShortHistory | signalmonitor.py:105-106 | without one-candle HTF frames, the loop as written computes the corrected scan |
| EmaScan.ShortHistoryAbortsScan | signalmonitor.py:105-106 | one symbol with a one-candle HTF frame makes the whole scan fail |
| EmaScan.TwoBatchLine | pencaripercobaan.py:150-159 | each line's list is strictly sorted, has no duplicates, and holds exactly the base assets of symbols from either batch that touch that line |
| Cooldown.TouchGate | percobaan.py:90-95 | fires exactly when `now − last ≥ 300` and then records `now`; when suppressed the table is unchanged; other symbols' entries never change |
| Cooldown.SignalGate | bot/signals.py:44-47 | fires exactly when `now − last > 900` and then records `now`; when suppressed the table is unchanged; other symbols' entries never change |
| Cooldown.BoundaryInclusiveVersusStrict | percobaan.py:92 | exactly 300 s later the touch gate fires, while exactly 900 s later the signal gate does not (bot/signals.py:46) |
| Cooldown.SecondTouchSuppressed | percobaan.py:90-95 | a second touch of the same symbol within 300 s, on either line, is suppressed |
| Cooldown.RunTouchGate | percobaan.py:90-95 | the alerts of a run are some of its attempts |
| Cooldown.RunTouchGateAppend | percobaan.py:45 | the table is global, so running two lists of attempts one after the other is running their concatenation |
| Cooldown.RunRespectsTable | percobaan.py:92 | each alert is at least 300 s after the symbol's entry in the starting table |
| Cooldown.RunIsSpaced | percobaan.py:91-95 | any two alerts for the same symbol in a run are at least 300 s apart |
| Watchlist.CommandSymbol | percobaan.py:194 | the argument upper-cased, followed by `/USDT:USDT` |
| Watchlist.CaseInsensitive | percobaan.py:194 | arguments that differ only in letter case name the same symbol |
| Watchlist.AddCoin | percobaan.py:191-198 | no argument: unchanged; an available, absent symbol is appended; otherwise unchanged; a duplicate-free list stays duplicate-free |
| Watchlist.RemoveFirst | percobaan.py:205 | `list.remove` drops one occurrence of a present symbol and leaves an absent one's list unchanged |
| Watchlist.RemoveFirstIsFilter | percobaan.py:204-205 | on a duplicate-free list, removing a symbol keeps the other entries in their order |
| Watchlist.DelCoin | percobaan.py:200-207 | no argument: unchanged; otherwise the symbol is removed and the rest keep their order; a duplicate-free list stays duplicate-free |
| Watchlist.Apply | percobaan.py:191-207 | any sequence of add/del commands keeps a duplicate-free watchlist duplicate-free |
| Watchlist.InitialHasNoDuplicates | percobaan.py:40-43 | starting from BTC and ETH, the watchlist never holds a duplicate |
| Monitor.EmaTouch | percobaan.py:75-87 | EMA150 exactly when it lies in the last row's range; EMA200 exactly when EMA150 does not and EMA200 does; none otherwise |
| Monitor.TouchWithinBand | percobaan.py:81-85 | a percobaan touch is also a touch for the tolerance-band test of the other scanners |
| Monitor.VisitSymbol | percobaan.py:143-164 | at most one alert is added; it needs a fetch of at least 200 rows, a touch on the last row, and 300 s since the symbol's last alert; conversely, whenever those hold the alert for the touched line is sent at `now` and the symbol's entry becomes `now`; only the symbol's own entry can change |
| Monitor.MonitorPass | percobaan.py:138-164 | monitor off: no fetch and nothing changes; on: every symbol of the watchlist as it stood when the pass began is fetched in order; alerts are only appended, and only for watchlist symbols |
| Monitor.TouchAttempts | percobaan.py:143-162 | the gate attempts of one pass are at most one per watchlist symbol, each for a symbol whose fetch has at least 200 rows and a last-row touch, at that symbol's visit time |
| Monitor.VisitIsTouchRun | percobaan.py:143-162 | visiting one symbol appends exactly the alerts, and leaves exactly the table, of the cooldown run over its attempt |
| Monitor.MonitorPassIsTouchRun | percobaan.py:143-164 | a pass with the monitor on appends exactly the alerts, and leaves exactly the table, of the cooldown run over its touch attempts |
| Monitor.MonitorLoop | percobaan.py:136-164 | the loop only appends alerts |
| Monitor.MonitorLoopIsTouchRun | percobaan.py:136-164 | any number of iterations, with the monitor switched on or off and the watchlist changing between them, is one cooldown run over the attempts of the iterations with the monitor on |
| Monitor.MonitorLoopSpaced | percobaan.py:136-164 | across all iterations, two alerts for the same symbol are at least 300 s apart, and each alert is at least 300 s after the symbol's entry in the starting table |
| Monitor.CheckSignal | bot/signals.py:20-26 | BUY exactly on ema9 > ema26 > ema50 > ema200; SELL exactly on the strictly rising chain |
| Monitor.SignalMirror | bot/signals.py:20-26 | negating all four EMAs swaps BUY and SELL |
| Monitor.TiesGiveNoSignal | bot/signals.py:22-26 | any equal neighbouring pair gives no signal |
| Monitor.SignalSymbols | bot/signals.py:32 | mode "ALL" scans the watchlist in order; any other mode scans just `MONITOR_SYMBOL` |
| Monitor.SignalStep | bot/signals.py:42-51 | an alert exactly when there is a direction and more than 900 s have passed, recording `now`; otherwise the table is unchanged |
| Monitor.RunSignals | bot/signals.py:33-51 | a run sends at most one alert per attempt |
| Monitor.RunSignalsAppend | bot/signals.py:11 | the table is global, so two runs one after the other are the run over the concatenated attempts |
| Monitor.RunSignalsRespectsTable | bot/signals.py:44-47 | each alert of a run is strictly more than 900 s after the symbol's entry in the starting table |
| Monitor.RunSignalsSpaced | bot/signals.py:44-47 | two alerts for the same symbol in a run are strictly more than 900 s apart |
| Monitor.SignalAttempts | bot/signals.py:32-45 | a pass makes at most one attempt per selected symbol, each for a selected symbol with that symbol's EMAs and clock reading |
| Monitor.SignalLoopIsOneRun | bot/signals.py:28-53 | any number of iterations of the loop is one run over the attempts of the iterations with the monitor on |
| Monitor.SignalLoopSpaced | bot/signals.py:28-53 | across all iterations, two alerts for the same symbol are strictly more than 900 s apart, and each is strictly more than 900 s after the symbol's entry in the starting table |
| Levels.LevelsAreWindowExtremes | bot/utils.py:7-10 | a support is ≤ every low of its window, and a resistance is ≥ every high of its window |
| Levels.CollectSupports | bot/utils.py:6-8 | the loop collects the lows of exactly the support indices, in increasing order |
| Levels.CollectResistances | bot/utils.py:6-10 | the loop collects the highs of exactly the resistance indices, in increasing order |
| Levels.SupportResistance | bot/utils.py:3-12 | returns the lows of the last two support indices and the highs of the last two resistance indices; both are empty when len ≤ 2·window |
| Levels.ReturnedSupports | bot/utils.py:7-12 | at most two supports are returned, each a real low of the series and the lowest in its window |
| Levels.ReturnedResistances | bot/utils.py:9-12 | at most two resistances are returned, each a real high of the series and the highest in its window |

## Left out

- Telegram plumbing is not modelled: command handlers, reply text and Markdown, `run_polling`, `post_init`, and the `scanning` re-entrancy flag.
- bot/main.py is not modelled. It also imports `signalmonitor`, `addcoin`, `delcoin` and `listcoin` from bot/signals.py, which does not define them.
- Exchange I/O is a parameter. This covers ccxt calls, `load_markets`, `fetch_tickers` and bot/exchange.py; `symbol_available` is an uninterpreted predicate.
- A raising `fetch_tickers` in the three scans is not modelled. `EmaScan.CoinScan`, `EmaScan.MonitorScan` and stoch.py's scan take a ticker list that was already fetched. In the source such an exception ends the scan with no report: pencaricoin.py:233 and stoch.py:140 call it outside any `try`, and signalmonitor.py:230 only runs a `finally`. At pencaricoin.py:233 the call comes before the `try` at line 238, so `scanning` is never reset and later scans are refused. Only pencaripercobaan.py's `[]` fallback is modelled (`Ranking.TopVolumeOrEmpty`).
- Chart rendering and image files are not modelled (mplfinance, `send_chart`, the PNG written and removed by `send_signal`).
- Delivery is not modelled. The cooldown timestamp is written before any sending, so a failed send cannot undo it. An exception from `send_photo` ends percobaan's `monitor_loop` task; that is not modelled.
- Sleeps and timing are not modelled. Only the inter-batch pauses are counted; per-symbol delays are left out, and clock readings are parameters.
- bot/signals.py's candle fetch and `calc_indicators` are not modelled: it reads `TF_SIGNAL`, which bot/config.py never defines. The four EMAs of the last row are inputs to `Monitor.CheckSignal`.
- Monitor.EmaTouch: percobaan.py's EMAs use pandas' default `adjust=True` weighting, so they are given inputs on each row, not computed.
- IEEE-754 rounding is not modelled: prices are exact reals. Division by zero does follow numpy (±inf, NaN).
- Ordering.SortDesc: Python's `list.sort` is stable, so equal keys keep their input order; the contract states only the permutation and the non-increasing order.
- Ranking.TopVolumeSymbols: the stable tie order among equal volumes is not stated, only the non-increasing order and the selection.
- Ranking.TopMovers: pandas' `sort_values` uses quicksort, so its order among equal volumes or changes is unspecified. The model sorts stably and states only the ordering and selection facts.
- Stochastic.RawOnWindow: a zero-range window is undefined (NaN). On ill-formed candles (close outside [low, high]) pandas can yield ±inf there; the model reads that as undefined as well.
- Conditions.Touches: the band statements assume a non-negative close. With a negative close the tolerance inverts, and the contract says nothing. The distance form also assumes low ≤ high.
- Conditions.ActiveCandle: the exact pass/fail condition is stated for a positive close. At zero close the NaN/inf results are modelled, and only the all-zero candle is stated (`FlatZeroCandlePasses`).
- Conditions.StrictCandle: the exact pass/fail condition is stated for a positive close only. A negative close flips every ratio's sign, and at zero close only the all-zero candle is stated (`FlatZeroCandlePasses`).
- Watchlist.CommandSymbol: `str.upper()` is modelled for ASCII letters only. Other Unicode case mappings are left out.
- Cooldown.RunTouchGate: its own contract states only that alerts are drawn from the attempts. The spacing facts are `RunRespectsTable` and `RunIsSpaced`.
- Monitor.RunSignals: its own contract states only the alert count. The spacing facts are `RunSignalsRespectsTable` and `RunSignalsSpaced`.
- Monitor.MonitorPass: a pass iterates a snapshot of the watchlist taken when the pass starts. The source's `for sym in WATCHLIST` (percobaan.py:143) walks the live list, and `/addcoin` and `/delcoin` (percobaan.py:191-207) run at every await of the pass: the per-symbol sleep, the send and the retry backoff. A removal of an already visited entry shifts the list, so the pass skips the next symbol. With [BTC, ETH, SOL] and `/delcoin btc` during the sleep after BTC, the pass visits SOL and never ETH. An append is visited in the same pass. The model lets the watchlist change only between passes (`Monitor.Round`). The cooldown spacing (`MonitorLoopSpaced`) holds for any sequence of attempts and does not depend on this.
- Monitor.MonitorLoop: its own contract states only that alerts are appended. What it sends is stated by `MonitorLoopIsTouchRun` and `MonitorLoopSpaced`.
- Monitor.SignalSymbols: `MONITOR_SYMBOL` defaults to `None`, and a `None` symbol would be passed to the exchange. The model keeps it as an `Option` and does not model that fetch. `SignalAttempts` makes no attempt for it.
- The config-validation `raise` and environment loading in bot/config.py are not modelled; only its constants are used.

## Findings

| source | as written | input that shows it | evidently intended | confidence | as-written member | corrected member |
|---|---|---|---|---|---|---|
| pencaricoin.py:250 | sleeps `DELAY_BETWEEN_BATCH` after every batch, the last one included, so the report waits 10 s for nothing | any scan: batch 4 finishes, then a pause precedes the report | pause only between batches, as signalmonitor.py:240-241 does with `if i < TOTAL_BATCH` | not executed | Batching.PencaricoinPausesAfterLastBatch | Batching.PencaricoinSchedule |
| signalmonitor.py:105-106 | `df15.iloc[-2]` / `df1h.iloc[-2]` on a frame of one candle raises IndexError; nothing catches it in `scan_batch` or `scan`, so the whole scan ends with no report | a listed symbol whose 15m fetch returns a single candle (a freshly listed contract) | treat a frame without a closed candle as giving no bias, so the symbol is filtered and the scan goes on | not executed | EmaScan.ShortHistoryAbortsScan | EmaScan.MonitorScan |

=== FILE: batching.dfy ===
/**
 * Partitioning the selected symbols into batches, and the order in which
 * batches and inter-batch pauses happen.
 */
module Batching {
  import opened Wrappers
  import opened Seqs

  /** `math.ceil(n / d)` for non-negative `n` and positive `d`, as repeated subtraction. */
  function CeilDiv(n: nat, d: nat): (q: nat)
    requires d > 0
    ensures q * d >= n
    ensures q == 0 || (q - 1) * d < n
    decreases n
  {
    if n == 0 then 0
    else
      var q := 1 + CeilDiv(if n <= d then 0 else n - d, d);
      assert q * d == (q - 1) * d + d;
      q
  }

  /** Any `k` with `k * d >= n` bounds the ceiling from above. */
  lemma {:induction false} CeilDivLeast(n: nat, d: nat, k: nat)
    requires d > 0 && k * d >= n
    ensures CeilDiv(n, d) <= k
    decreases n
  {
    if n > d {
      assert (k - 1) * d == k * d - d;
      CeilDivLeast(n - d, d, k - 1);
    }
  }

  // ---------------------------------------------------------------------
  // pencaricoin / signalmonitor: a fixed grid over TOP_N
  // ---------------------------------------------------------------------

  const TopN200: nat := 200
  const BatchSize50: nat := 50
  const TotalBatch: nat := 4

  function FixedBatchesFrom<T>(s: seq<T>, i: nat, topN: nat, size: nat): seq<seq<T>>
    requires size > 0
    decreases topN - i
  {
    if i >= topN then [] else [Slice(s, i, i + size)] + FixedBatchesFrom(s, i + size, topN, size)
  }

  /**
   * `[symbols[i:i+size] for i in range(0, topN, size)]`: the grid ranges over
   * `topN`, not over the list, so short lists give trailing empty batches.
   */
  function FixedBatches<T>(s: seq<T>, topN: nat, size: nat): (r: seq<seq<T>>)
    requires size > 0
    ensures |r| == CeilDiv(topN, size)
    ensures forall k :: 0 <= k < |r| ==> |r[k]| <= size
    ensures |s| <= topN ==> Flatten(r) == s
  {
    FixedBatchesFromFacts(s, 0, topN, size);
    FixedBatchesFrom(s, 0, topN, size)
  }

  lemma FixedBatchesFromFacts<T>(s: seq<T>, i: nat, topN: nat, size: nat)
    requires size > 0
    ensures i < topN ==> |FixedBatchesFrom(s, i, topN, size)| == CeilDiv(topN - i, size)
    ensures i >= topN ==> |FixedBatchesFrom(s, i, topN, size)| == 0
    ensures forall k :: 0 <= k < |FixedBatchesFrom(s, i, topN, size)| ==> |FixedBatchesFrom(s, i, topN, size)[k]| <= size
    ensures |s| <= topN ==> Flatten(FixedBatchesFrom(s, i, topN, size)) == s[Min(i, |s|)..]
  {
    FixedBatchesCount(s, i, topN, size);
    FixedBatchesSizes(s, i, topN, size);
    if |s| <= topN {
      FixedBatchesFlatten(s, i, topN, size);
    }
  }

  lemma {:induction false} FixedBatchesCount<T>(s: seq<T>, i: nat, topN: nat, size: nat)
    requires size > 0
    ensures |FixedBatchesFrom(s, i, topN, size)| == if i < topN then CeilDiv(topN - i, size) else 0
    decreases topN - i
  {
    if i < topN {
      FixedBatchesCount(s, i + size, topN, size);
    }
  }

  lemma {:induction false} FixedBatchesSizes<T>(s: seq<T>, i: nat, topN: nat, size: nat)
    requires size > 0
    ensures forall k :: 0 <= k < |FixedBatchesFrom(s, i, topN, size)| ==> |FixedBatchesFrom(s, i, topN, size)[k]| <= size
    decreases topN - i
  {
    if i < topN {
      FixedBatchesSizes(s, i + size, topN, size);
      var r := FixedBatchesFrom(s, i, topN, size);
      assert r[1..] == FixedBatchesFrom(s, i + size, topN, size);
      forall k | 1 <= k < |r| ensures |r[k]| <= size {
        assert r[k] == r[1..][k - 1];
      }
    }
  }

  lemma {:induction false} FixedBatchesFlatten<T>(s: seq<T>, i: nat, topN: nat, size: nat)
    requires size > 0 && |s| <= topN
    ensures Flatten(FixedBatchesFrom(s, i, topN, size)) == s[Min(i, |s|)..]
    decreases topN - i
  {
    if i < topN {
      var r := FixedBatchesFrom(s, i, topN, size);
      FixedBatchesFlatten(s, i + size, topN, size);
      assert r[1..] == FixedBatchesFrom(s, i + size, topN, size);
      var lo, mid := Min(i, |s|), Min(i + size, |s|);
      assert Slice(s, i, i + size) == s[lo..mid];
      assert s[lo..] == s[lo..mid] + s[mid..];
    }
  }

  /** pencaricoin's grid always has TOTAL_BATCH = 4 entries. */
  lemma FixedGridHasFourBatches<T>(s: seq<T>)
    ensures |FixedBatches(s, TopN200, BatchSize50)| == TotalBatch
  {
  }

  /**
   * 120 selected symbols give batches of 50, 50 and 20 followed by an empty
   * fourth batch, which is scanned as a no-op.
   */
  lemma HundredTwentySymbols<T>(s: seq<T>)
    requires |s| == 120
    ensures Map((b: seq<T>) => |b|, FixedBatches(s, TopN200, BatchSize50)) == [50, 50, 20, 0]
  {
    var r := FixedBatches(s, TopN200, BatchSize50);
    assert r == [s[0..50], s[50..100], s[100..120], []];
  }

  // ---------------------------------------------------------------------
  // stoch.py: ceil(len / BATCH_COUNT) per batch
  // ---------------------------------------------------------------------

  const BatchCount6: nat := 6

  datatype BatchError = ZeroStep

  /** `[s[i:i+size] for i in range(0, len(s), size)]` for a positive step. */
  function Chunks<T>(s: seq<T>, size: nat): (r: seq<seq<T>>)
    requires size > 0
    ensures Flatten(r) == s
    ensures |r| == CeilDiv(|s|, size)
    ensures forall k :: 0 <= k < |r| ==> 0 < |r[k]| <= size
    decreases |s|
  {
    if |s| == 0 then []
    else
      var cut := Min(size, |s|);
      var r := [s[..cut]] + Chunks(s[cut..], size);
      assert s == s[..cut] + s[cut..];
      r
  }

  /**
   * stoch.py's partition: batch size `ceil(len / count)`. An empty symbol list
   * makes that size 0 and `range(0, 0, 0)` raise.
   */
  function CeilBatches<T>(s: seq<T>, count: nat): (r: Result<seq<seq<T>>, BatchError>)
    requires count > 0
    ensures |s| == 0 <==> r.Failure?
    ensures r.Success? ==> Flatten(r.value) == s
    ensures r.Success? ==> 0 < |r.value| <= count
    ensures r.Success? ==> forall k :: 0 <= k < |r.value| ==> 0 < |r.value[k]|
  {
    var size := CeilDiv(|s|, count);
    if size == 0 then Failure(ZeroStep)
    else
      CeilOfCeil(|s|, count);
      Success(Chunks(s, size))
  }

  /** `ceil(n / ceil(n / c)) <= c`: the chosen size never yields more than `c` batches. */
  lemma CeilOfCeil(n: nat, c: nat)
    requires c > 0 && n > 0
    ensures CeilDiv(n, CeilDiv(n, c)) <= c
  {
    var b := CeilDiv(n, c);
    assert c * b == b * c;
    CeilDivLeast(n, b, c);
  }

  // ---------------------------------------------------------------------
  // pencaripercobaan.py: a hard split into two batches
  // ---------------------------------------------------------------------

  /** `symbols[:size]` and `symbols[size:]`. */
  function SplitTwo<T>(s: seq<T>, size: nat): (r: (seq<T>, seq<T>))
    ensures r.0 + r.1 == s
    ensures |r.0| == Min(size, |s|)
    ensures NoDup(s) ==> forall x :: x in r.0 ==> x !in r.1
  {
    var cut := Min(size, |s|);
    assert s == s[..cut] + s[cut..];
    (s[..cut], s[cut..])
  }

  // ---------------------------------------------------------------------
  // Inter-batch pauses
  // ---------------------------------------------------------------------

  datatype Step = RunBatch(index: nat) | Pause

  /**
   * Batches `i..n` (1-based, in order), each followed by a pause exactly when
   * its index is below `bound`: `if i < bound: await asyncio.sleep(...)`.
   */
  function ScheduleFrom(i: nat, n: nat, bound: nat): seq<Step>
    decreases n - i + 1
  {
    if i == 0 || i > n then []
    else [RunBatch(i)] + (if i < bound then [Pause] else []) + ScheduleFrom(i + 1, n, bound)
  }

  function Schedule(n: nat, bound: nat): seq<Step> {
    ScheduleFrom(1, n, bound)
  }

  function CountPauses(steps: seq<Step>): nat {
    if |steps| == 0 then 0 else (if steps[0].Pause? then 1 else 0) + CountPauses(steps[1..])
  }

  /**
   * With the pause guarded by the batch count (signalmonitor.py, stoch.py),
   * batches alternate with pauses and the run ends on the last batch: n - 1
   * pauses, none after the last batch.
   */
  lemma {:induction false} GuardedScheduleAlternates(n: nat)
    requires n > 0
    ensures |Schedule(n, n)| == 2 * n - 1
    ensures forall k :: 0 <= k < n ==> Schedule(n, n)[2 * k] == RunBatch(k + 1)
    ensures forall k :: 0 <= k < n - 1 ==> Schedule(n, n)[2 * k + 1] == Pause
    ensures Schedule(n, n)[2 * n - 2] == RunBatch(n)
    ensures CountPauses(Schedule(n, n)) == n - 1
  {
    GuardedFrom(1, n);
    assert Schedule(n, n) == ScheduleFrom(1, n, n);
    assert ScheduleFrom(1, n, n)[2 * (n - 1)] == RunBatch(1 + (n - 1));
  }

  lemma {:induction false} GuardedFrom(i: nat, n: nat)
    requires 0 < i <= n
    ensures |ScheduleFrom(i, n, n)| == 2 * (n - i) + 1
    ensures forall k :: 0 <= k <= n - i ==> ScheduleFrom(i, n, n)[2 * k] == RunBatch(i + k)
    ensures forall k :: 0 <= k < n - i ==> ScheduleFrom(i, n, n)[2 * k + 1] == Pause
    ensures CountPauses(ScheduleFrom(i, n, n)) == n - i
    decreases n - i
  {
    var r := ScheduleFrom(i, n, n);
    if i < n {
      GuardedFrom(i + 1, n);
      var rest := ScheduleFrom(i + 1, n, n);
      assert r == [RunBatch(i), Pause] + rest;
      assert r[1..] == [Pause] + rest && r[2..] == rest;
      forall k | 0 < k <= n - i ensures r[2 * k] == RunBatch(i + k) {
        assert r[2 * k] == rest[2 * (k - 1)];
      }
      forall k | 0 < k < n - i ensures r[2 * k + 1] == Pause {
        assert r[2 * k + 1] == rest[2 * (k - 1) + 1];
      }
    } else {
      assert ScheduleFrom(i + 1, n, n) == [];
      assert r == [RunBatch(i)];
      assert r[1..] == [];
    }
  }

  /**
   * signalmonitor.py guards with the constant TOTAL_BATCH = 4; its grid always
   * has exactly 4 batches, so no pause follows the last one.
   */
  lemma SignalMonitorPauses<T>(symbols: seq<T>)
    ensures var n := |FixedBatches(symbols, TopN200, BatchSize50)|;
      Schedule(n, TotalBatch) == Schedule(n, n) &&
      CountPauses(Schedule(n, TotalBatch)) == n - 1 &&
      Schedule(n, TotalBatch)[|Schedule(n, TotalBatch)| - 1] == RunBatch(n)
  {
    FixedGridHasFourBatches(symbols);
    GuardedScheduleAlternates(TotalBatch);
  }

  /** pencaripercobaan.py: batch 1, one pause, batch 2, whatever the batches hold. */
  function TwoBatchSchedule(): seq<Step> {
    [RunBatch(1), Pause, RunBatch(2)]
  }

  /**
   * The two-batch scan pauses once, between its batches: the same run as the
   * guarded loop over two batches, so no pause delays the report.
   */
  lemma TwoBatchScheduleIsGuarded()
    ensures TwoBatchSchedule() == Schedule(2, 2)
    ensures CountPauses(TwoBatchSchedule()) == 1
  {
    GuardedScheduleAlternates(2);
    assert ScheduleFrom(3, 2, 2) == [];
    assert ScheduleFrom(2, 2, 2) == [RunBatch(2)];
    assert ScheduleFrom(1, 2, 2) == [RunBatch(1), Pause] + [RunBatch(2)];
  }

  /**
   * pencaricoin.py as written: `await asyncio.sleep(DELAY_BETWEEN_BATCH)` after
   * every batch, the last one included.
   */
  function PencaricoinScheduleAsWritten(n: nat): seq<Step> {
    Schedule(n, n + 1)
  }

  /** As written, pencaricoin pauses after its 4th and last batch before reporting. */
  lemma PencaricoinPausesAfterLastBatch()
    ensures var s := PencaricoinScheduleAsWritten(TotalBatch);
      |s| == 8 && s[7] == Pause && CountPauses(s) == TotalBatch
  {
    var s := PencaricoinScheduleAsWritten(TotalBatch);
    assert s == [RunBatch(1), Pause, RunBatch(2), Pause, RunBatch(3), Pause, RunBatch(4), Pause];
  }

  /** pencaricoin's schedule with the pause guarded like signalmonitor's. */
  function PencaricoinSchedule(n: nat): (r: seq<Step>)
    requires n > 0
    ensures |r| == 2 * n - 1
    ensures CountPauses(r) == n - 1
    ensures r[|r| - 1] == RunBatch(n)
  {
    GuardedScheduleAlternates(n);
    Schedule(n, n)
  }
}

=== FILE: conditions.dfy ===
/**
 * The per-candle decisions shared by the EMA touch scanners
 * (pencaricoin.py, signalmonitor.py): the closed-candle row with its three
 * EMAs, the touch test with its tolerance, the trend label, the
 * active-candle and strict filters, the EMA slope filter and the
 * higher-timeframe bias.
 */
module Conditions {
  import opened Wrappers
  import opened Seqs
  import opened Floats
  import opened Market
  import opened Ema

  const TolerancePct: real := 0.001
  const MinRangePct: real := 0.003
  const MinBodyPct: real := 0.0015
  const StrictRangePct: real := 0.006
  const StrictBodyPct: real := 0.003
  const StrictEmaGap: real := 0.002
  const MinEmaSlope: real := 0.0002

  /** The closed candle `c = df.iloc[-2]` with the `adjust=False` EMA columns read on it. */
  datatype Row = Row(candle: Candle, ema150: real, ema200: real, ema250: real)

  /** `calc_ema(df).iloc[-2]`. */
  function ClosedRow(cs: seq<Candle>): (r: Row)
    requires |cs| >= 2
    ensures r.candle == cs[|cs| - 2]
    ensures var past := Closes(cs)[..|cs| - 1];
      && SeqMin(past) <= r.ema150 <= SeqMax(past)
      && SeqMin(past) <= r.ema200 <= SeqMax(past)
      && SeqMin(past) <= r.ema250 <= SeqMax(past)
  {
    var closes, i := Closes(cs), |cs| - 2;
    assert closes[..i + 1] == Closes(cs)[..|cs| - 1];
    Row(Closed(cs), EmaOf(closes, Span150, i), EmaOf(closes, Span200, i), EmaOf(closes, Span250, i))
  }

  datatype Trend = Bullish | Bearish

  /** `"Bullish 📈" if c.ema150 > c.ema200 else "Bearish 📉"`: equal EMAs read as bearish. */
  function TrendOf(r: Row): Trend {
    if r.ema150 > r.ema200 then Bullish else Bearish
  }

  /** `tol = c.close * TOLERANCE_PCT`. */
  function Tolerance(c: Candle): real {
    c.close * TolerancePct
  }

  /** How far `ema` lies outside the range `[c.low, c.high]`; 0 inside it. */
  function DistanceToRange(c: Candle, ema: real): (d: real)
    ensures d >= 0.0
    ensures d == 0.0 <==> c.low <= ema <= c.high
  {
    if ema > c.high then ema - c.high else if ema < c.low then c.low - ema else 0.0
  }

  /**
   * `c.low - tol <= ema <= c.high + tol`: on a well-formed candle, the EMA
   * touches exactly when it lies within the tolerance of the candle's range.
   */
  function Touches(c: Candle, ema: real): (b: bool)
    ensures c.close >= 0.0 && c.low <= ema <= c.high ==> b
    ensures b ==> ema <= c.high + Tolerance(c) && c.low - Tolerance(c) <= ema
    ensures c.close >= 0.0 && c.low <= c.high ==> (b <==> DistanceToRange(c, ema) <= Tolerance(c))
  {
    c.low - Tolerance(c) <= ema <= c.high + Tolerance(c)
  }

  /** `(c.high - c.low) / c.close`, a numpy division. */
  function RangePct(c: Candle): Float {
    Div(c.high - c.low, c.close)
  }

  /** `abs(c.close - c.open) / c.close`. */
  function BodyPct(c: Candle): Float {
    Abs(Div(c.close - c.open, c.close))
  }

  /** `abs(c.ema150 - c.ema200) / c.close`. */
  function EmaGap(r: Row): Float {
    Abs(Div(r.ema150 - r.ema200, r.candle.close))
  }

  function AbsReal(x: real): real {
    if x < 0.0 then -x else x
  }

  lemma AbsQuotient(a: real, b: real)
    requires b > 0.0
    ensures Abs(Div(a, b)) == Finite(AbsReal(a) / b)
  {
    if a < 0.0 {
      assert -(a / b) == (-a) / b;
    }
  }

  /** With any non-zero divisor, `abs(a / b)` is `|a| / |b|`. */
  lemma AbsQuotientSigned(a: real, b: real)
    requires b != 0.0
    ensures Abs(Div(a, b)) == Finite(AbsReal(a) / AbsReal(b))
  {
    if b < 0.0 {
      assert a / b == (-a) / (-b);
      AbsQuotient(-a, -b);
      assert AbsReal(-a) == AbsReal(a);
    } else {
      AbsQuotient(a, b);
    }
  }

  /**
   * The normal-mode candle filter: the candle passes unless its range or its
   * body is below the minimum. NaN compares false, so a flat candle closing
   * at 0 passes.
   */
  function ActiveCandle(c: Candle): (ok: bool)
    ensures c.close > 0.0 ==>
      (ok <==> c.high - c.low >= MinRangePct * c.close && AbsReal(c.close - c.open) >= MinBodyPct * c.close)
  {
    var ok := !(Less(RangePct(c), MinRangePct) || Less(BodyPct(c), MinBodyPct));
    assert c.close > 0.0 ==>
      (ok <==> c.high - c.low >= MinRangePct * c.close && AbsReal(c.close - c.open) >= MinBodyPct * c.close) by {
      if c.close > 0.0 {
        LessQuotient(c.high - c.low, c.close, MinRangePct);
        AbsQuotient(c.close - c.open, c.close);
        LessQuotient(AbsReal(c.close - c.open), c.close, MinBodyPct);
      }
    }
    ok
  }

  /** The strict-mode filters, checked in order: range, body, EMA alignment. */
  function StrictCandle(r: Row): (ok: bool)
    ensures r.candle.close > 0.0 ==>
      (ok <==> && r.candle.high - r.candle.low >= StrictRangePct * r.candle.close
               && AbsReal(r.candle.close - r.candle.open) >= StrictBodyPct * r.candle.close
               && AbsReal(r.ema150 - r.ema200) >= StrictEmaGap * r.candle.close)
  {
    var c := r.candle;
    var ok := !Less(RangePct(c), StrictRangePct) && !Less(BodyPct(c), StrictBodyPct) && !Less(EmaGap(r), StrictEmaGap);
    assert c.close > 0.0 ==>
      (ok <==> && c.high - c.low >= StrictRangePct * c.close
               && AbsReal(c.close - c.open) >= StrictBodyPct * c.close
               && AbsReal(r.ema150 - r.ema200) >= StrictEmaGap * c.close) by {
      if c.close > 0.0 {
        LessQuotient(c.high - c.low, c.close, StrictRangePct);
        AbsQuotient(c.close - c.open, c.close);
        LessQuotient(AbsReal(c.close - c.open), c.close, StrictBodyPct);
        AbsQuotient(r.ema150 - r.ema200, c.close);
        LessQuotient(AbsReal(r.ema150 - r.ema200), c.close, StrictEmaGap);
      }
    }
    ok
  }

  /** For a positive close, every candle the strict filters pass also passes the normal filter. */
  lemma StrictImpliesActive(r: Row)
    requires r.candle.close > 0.0
    ensures StrictCandle(r) ==> ActiveCandle(r.candle)
  {
  }

  /** A flat candle closing at 0 gives NaN ratios, which no `<` rejects. */
  lemma FlatZeroCandlePasses(t: int)
    ensures ActiveCandle(Candle(t, 0.0, 0.0, 0.0, 0.0, 0.0))
    ensures StrictCandle(Row(Candle(t, 0.0, 0.0, 0.0, 0.0, 0.0), 0.0, 0.0, 0.0))
  {
  }

  /**
   * `ema_slope_ok`: the relative change of the EMA200 column from `iloc[-5]`
   * to `iloc[-2]` is at least 0.02% in either direction.
   */
  function EmaSlopeOk(s: seq<real>): (ok: bool)
    requires |s| >= 5
    ensures s[|s| - 5] != 0.0 ==>
      (ok <==> AbsReal(s[|s| - 2] - s[|s| - 5]) >= MinEmaSlope * AbsReal(s[|s| - 5]))
  {
    var a, b := s[|s| - 2] - s[|s| - 5], s[|s| - 5];
    var ok := AtLeast(Abs(Div(a, b)), MinEmaSlope);
    assert b != 0.0 ==> (ok <==> AbsReal(a) >= MinEmaSlope * AbsReal(b)) by {
      if b != 0.0 {
        AbsQuotientSigned(a, b);
        LessQuotient(AbsReal(a), AbsReal(b), MinEmaSlope);
      }
    }
    ok
  }

  /** The EMA200 column `df["ema200"]` of a frame. */
  function Ema200Column(cs: seq<Candle>): (col: seq<real>)
    ensures |col| == |cs|
    ensures forall i :: 0 <= i < |cs| ==> col[i] == EmaOf(Closes(cs), Span200, i)
  {
    seq(|cs|, i requires 0 <= i < |cs| => EmaOf(Closes(cs), Span200, i))
  }

  // ---------------------------------------------------------------------
  // Higher-timeframe bias
  // ---------------------------------------------------------------------

  /** One frame's lean: its closed close against its EMA200; equal means no lean. */
  function Lean(cs: seq<Candle>): Option<Trend>
    requires |cs| >= 2
  {
    var c, e := Closed(cs).close, EmaOf(Closes(cs), Span200, |cs| - 2);
    if c > e then Some(Bullish) else if c < e then Some(Bearish) else None
  }

  datatype BiasError = IndexError

  /**
   * `get_htf_bias` as written: both frames are fetched (15m, then 1h); an
   * empty or failed fetch gives no bias; otherwise `iloc[-2]` is read on
   * each, which raises on a frame of a single candle.
   */
  function HtfBiasAsWritten(f15: Option<seq<Candle>>, f1h: Option<seq<Candle>>): (r: Result<Option<Trend>, BiasError>)
    ensures r.Failure? <==> Usable(f15) && Usable(f1h) && (|f15.value| == 1 || |f1h.value| == 1)
  {
    if !Usable(f15) || !Usable(f1h) then Success(None)
    else if |f15.value| < 2 || |f1h.value| < 2 then Failure(IndexError)
    else Success(Agree(Lean(f15.value), Lean(f1h.value)))
  }

  /** Bias only when both timeframes lean the same way. */
  function Agree(a: Option<Trend>, b: Option<Trend>): Option<Trend> {
    if a == b then a else None
  }

  /** A frame with a closed candle. */
  predicate HasClosed(f: Option<seq<Candle>>) {
    f.Some? && |f.value| >= 2
  }

  /**
   * The bias with a frame of a single candle read as no bias: a direction
   * is returned exactly when both frames have a closed candle and both lean
   * that way.
   */
  function HtfBias(f15: Option<seq<Candle>>, f1h: Option<seq<Candle>>): (r: Option<Trend>)
    ensures forall t :: r == Some(t) <==>
      HasClosed(f15) && HasClosed(f1h) && Lean(f15.value) == Some(t) && Lean(f1h.value) == Some(t)
  {
    if !HasClosed(f15) || !HasClosed(f1h) then None
    else Agree(Lean(f15.value), Lean(f1h.value))
  }

  /** Where the code as written returns, it returns the corrected bias. */
  lemma HtfBiasAgrees(f15: Option<seq<Candle>>, f1h: Option<seq<Candle>>)
    ensures HtfBiasAsWritten(f15, f1h).Success? ==> HtfBiasAsWritten(f15, f1h).value == HtfBias(f15, f1h)
  {
  }

  /** A 15m history of one candle makes `get_htf_bias` raise instead of answering. */
  lemma SingleCandleHtfRaises(c: Candle, h: seq<Candle>)
    requires |h| >= 1
    ensures HtfBiasAsWritten(Some([c]), Some(h)) == Failure(IndexError)
    ensures HtfBias(Some([c]), Some(h)) == None
  {
  }
}

=== FILE: cooldown.dfy ===
/**
 * The per-symbol alert cooldown: `LAST_SIGNAL` in percobaan.py (fires when
 * at least 300 s have passed) and `LAST_SIGNAL_TIME` in bot/signals.py
 * (fires when strictly more than 900 s have passed). Timestamps are the
 * clock readings passed in; a symbol never seen reads as time 0.
 */
module Cooldown {

  /** `SIGNAL_COOLDOWN` in percobaan.py. */
  const TouchCooldown: real := 300.0
  /** `SIGNAL_COOLDOWN` in bot/config.py. */
  const SignalCooldown: real := 900.0

  /** Last alert time per symbol; the key is the symbol alone, not the touched line. */
  type Table = map<string, real>

  /** `table.get(sym, 0)`. */
  function LastFired(table: Table, sym: string): real {
    if sym in table then table[sym] else 0.0
  }

  /** Whether the alert goes out and the table afterwards. */
  datatype Gate = Gate(fire: bool, table: Table)

  /** The table equals `table` on every symbol other than `sym`. */
  ghost predicate OthersUnchanged(before: Table, after: Table, sym: string) {
    forall s :: s != sym ==> (s in after <==> s in before) && (s in before ==> after[s] == before[s])
  }

  /**
   * percobaan's `send_signal` gate: return early while fewer than 300 s
   * have passed, otherwise record `now` for the symbol before anything is
   * rendered or sent.
   */
  function TouchGate(table: Table, sym: string, now: real): (g: Gate)
    ensures g.fire ==> sym in g.table && g.table[sym] == now && now - LastFired(table, sym) >= TouchCooldown
    ensures !g.fire ==> g.table == table && now < LastFired(table, sym) + TouchCooldown
    ensures OthersUnchanged(table, g.table, sym)
  {
    if now - LastFired(table, sym) < TouchCooldown then Gate(false, table)
    else Gate(true, table[sym := now])
  }

  /**
   * bot/signals' gate, reached only when `check_signal` gave a direction:
   * strictly more than 900 s must have passed.
   */
  function SignalGate(table: Table, sym: string, now: real): (g: Gate)
    ensures g.fire ==> sym in g.table && g.table[sym] == now && now - LastFired(table, sym) > SignalCooldown
    ensures !g.fire ==> g.table == table && now <= LastFired(table, sym) + SignalCooldown
    ensures OthersUnchanged(table, g.table, sym)
  {
    if now - LastFired(table, sym) > SignalCooldown then Gate(true, table[sym := now]) else Gate(false, table)
  }

  /** Exactly at the boundary the two gates differ: 300 s later percobaan fires, 900 s later bot/signals does not. */
  lemma BoundaryInclusiveVersusStrict(table: Table, sym: string, t: real)
    requires sym in table && table[sym] == t
    ensures TouchGate(table, sym, t + 300.0).fire
    ensures !SignalGate(table, sym, t + 900.0).fire
  {
  }

  /**
   * Because the key is the symbol alone, an EMA150 alert at `t` suppresses
   * any alert for the same symbol, whatever line it touches, before `t + 300`.
   */
  lemma SecondTouchSuppressed(table: Table, sym: string, t: real, t': real)
    requires TouchGate(table, sym, t).fire
    requires t <= t' < t + TouchCooldown
    ensures !TouchGate(TouchGate(table, sym, t).table, sym, t').fire
  {
  }

  /** One attempt to alert: a symbol and the clock reading when it is made. */
  datatype Attempt = Attempt(symbol: string, now: real)

  /**
   * Runs the percobaan gate over successive attempts, returning the alerts
   * that went out and the final table. Delivery happens after the table is
   * written, so whether it succeeds does not enter.
   */
  function RunTouchGate(table: Table, xs: seq<Attempt>): (r: (seq<Attempt>, Table))
    ensures |r.0| <= |xs|
    ensures forall a :: a in r.0 ==> a in xs
    decreases |xs|
  {
    if |xs| == 0 then ([], table)
    else
      var g := TouchGate(table, xs[0].symbol, xs[0].now);
      var rest := RunTouchGate(g.table, xs[1..]);
      assert forall a :: a in rest.0 ==> a in xs by {
        assert forall a :: a in xs[1..] ==> a in xs;
      }
      (if g.fire then [xs[0]] + rest.0 else rest.0, rest.1)
  }

  /**
   * The table persists between passes: running two lists of attempts one
   * after the other is running their concatenation.
   */
  lemma {:induction false} RunTouchGateAppend(table: Table, a: seq<Attempt>, b: seq<Attempt>)
    ensures RunTouchGate(table, a + b).0 == RunTouchGate(table, a).0 + RunTouchGate(RunTouchGate(table, a).1, b).0
    ensures RunTouchGate(table, a + b).1 == RunTouchGate(RunTouchGate(table, a).1, b).1
    decreases |a|
  {
    if |a| == 0 {
      assert a + b == b;
    } else {
      var ab := a + b;
      assert ab[0] == a[0] && ab[1..] == a[1..] + b;
      var g := TouchGate(table, a[0].symbol, a[0].now);
      var tail := RunTouchGate(g.table, a[1..]);
      var second := RunTouchGate(tail.1, b);
      RunTouchGateAppend(g.table, a[1..], b);
      var whole := RunTouchGate(g.table, ab[1..]);
      assert whole.0 == tail.0 + second.0 && whole.1 == second.1;
      if g.fire {
        assert RunTouchGate(table, ab).0 == [a[0]] + whole.0;
        assert RunTouchGate(table, a).0 == [a[0]] + tail.0;
        assert [a[0]] + (tail.0 + second.0) == ([a[0]] + tail.0) + second.0;
      }
    }
  }

  /** Every alert of a run comes at least 300 s after its symbol's entry in the starting table. */
  lemma {:induction false} RunRespectsTable(table: Table, xs: seq<Attempt>)
    ensures forall a :: a in RunTouchGate(table, xs).0 ==> a.now - LastFired(table, a.symbol) >= TouchCooldown
    decreases |xs|
  {
    if |xs| > 0 {
      var g := TouchGate(table, xs[0].symbol, xs[0].now);
      var rest := RunTouchGate(g.table, xs[1..]);
      RunRespectsTable(g.table, xs[1..]);
      var alerts := RunTouchGate(table, xs).0;
      assert alerts == if g.fire then [xs[0]] + rest.0 else rest.0;
      forall a | a in alerts
        ensures a.now - LastFired(table, a.symbol) >= TouchCooldown
      {
        if a in rest.0 {
          assert LastFired(g.table, a.symbol) >= LastFired(table, a.symbol);
        } else {
          assert a == xs[0] && g.fire;
        }
      }
    }
  }

  /** Alerts for one symbol are at least 300 s apart. */
  predicate Spaced(alerts: seq<Attempt>) {
    forall i, j :: 0 <= i < j < |alerts| && alerts[i].symbol == alerts[j].symbol ==>
      alerts[j].now - alerts[i].now >= TouchCooldown
  }

  /**
   * In any run of attempts, the alerts that go out for one symbol are
   * spaced by at least the cooldown, whatever the order of the clock
   * readings.
   */
  lemma {:induction false} RunIsSpaced(table: Table, xs: seq<Attempt>)
    ensures Spaced(RunTouchGate(table, xs).0)
    decreases |xs|
  {
    if |xs| > 0 {
      var g := TouchGate(table, xs[0].symbol, xs[0].now);
      var rest := RunTouchGate(g.table, xs[1..]);
      RunIsSpaced(g.table, xs[1..]);
      if g.fire {
        RunRespectsTable(g.table, xs[1..]);
        var alerts := [xs[0]] + rest.0;
        assert RunTouchGate(table, xs).0 == alerts;
        assert LastFired(g.table, xs[0].symbol) == xs[0].now;
        forall i, j | 0 <= i < j < |alerts| && alerts[i].symbol == alerts[j].symbol
          ensures alerts[j].now - alerts[i].now >= TouchCooldown
        {
          assert alerts[j] == rest.0[j - 1];
          assert rest.0[j - 1] in rest.0;
          if i > 0 {
            assert alerts[i] == rest.0[i - 1];
          }
        }
      }
    }
  }
}

=== FILE: ema.dfy ===
/**
 * The exponential moving average `close.ewm(span=n, adjust=False).mean()`:
 * seeded with the first close, then `ema[i] = α·close[i] + (1 − α)·ema[i−1]`
 * with `α = 2 / (span + 1)`.
 */
module Ema {
  import opened Seqs

  /** The smoothing factor of a span; pandas rejects spans below 1. */
  function Alpha(span: nat): (a: real)
    requires span >= 1
    ensures 0.0 < a <= 1.0
  {
    2.0 / (span as real + 1.0)
  }

  /** One step of the recurrence: the new close weighted by α, the previous EMA by 1 − α. */
  function Blend(alpha: real, close: real, prev: real): real {
    alpha * close + (1.0 - alpha) * prev
  }

  /**
   * The EMA value at index `i`. Each value is a convex combination of the
   * closes seen so far, so it never leaves their range.
   */
  function EmaAt(closes: seq<real>, alpha: real, i: nat): (e: real)
    requires i < |closes|
    requires 0.0 < alpha <= 1.0
    ensures SeqMin(closes[..i + 1]) <= e <= SeqMax(closes[..i + 1])
  {
    if i == 0 then closes[0]
    else
      var prev := EmaAt(closes, alpha, i - 1);
      PrefixExtremes(closes, i);
      Convex(alpha, closes[i], prev, SeqMin(closes[..i + 1]), SeqMax(closes[..i + 1]));
      Blend(alpha, closes[i], prev)
  }

  /** Extending a prefix by one element can only widen its range. */
  lemma PrefixExtremes(s: seq<real>, i: nat)
    requires 0 < i < |s|
    ensures SeqMin(s[..i + 1]) <= SeqMin(s[..i]) && SeqMin(s[..i + 1]) <= s[i]
    ensures SeqMax(s[..i + 1]) >= SeqMax(s[..i]) && SeqMax(s[..i + 1]) >= s[i]
  {
    assert s[..i + 1][..i] == s[..i];
  }

  lemma MulNonNeg(a: real, b: real)
    requires a >= 0.0 && b >= 0.0
    ensures a * b >= 0.0
  {
  }

  /** A convex combination of two points of [lo, hi] stays in [lo, hi]. */
  lemma Convex(alpha: real, x: real, y: real, lo: real, hi: real)
    requires 0.0 < alpha <= 1.0
    requires lo <= x <= hi && lo <= y <= hi
    ensures lo <= Blend(alpha, x, y) <= hi
  {
    MulNonNeg(alpha, x - lo);
    MulNonNeg(1.0 - alpha, y - lo);
    MulNonNeg(alpha, hi - x);
    MulNonNeg(1.0 - alpha, hi - y);
    assert Blend(alpha, x, y) - lo == alpha * (x - lo) + (1.0 - alpha) * (y - lo);
    assert hi - Blend(alpha, x, y) == alpha * (hi - x) + (1.0 - alpha) * (hi - y);
  }

  /**
   * The EMA column, computed the way pandas does in one forward pass. It
   * satisfies the seeded recurrence at every index.
   */
  method EmaColumn(closes: seq<real>, span: nat) returns (col: seq<real>)
    requires span >= 1
    ensures |col| == |closes|
    ensures |closes| > 0 ==> col[0] == closes[0]
    ensures forall i :: 0 < i < |col| ==>
              col[i] == Blend(Alpha(span), closes[i], col[i - 1])
    ensures forall i :: 0 <= i < |col| ==> SeqMin(closes[..i + 1]) <= col[i] <= SeqMax(closes[..i + 1])
  {
    var alpha := Alpha(span);
    col := [];
    var i := 0;
    while i < |closes|
      invariant 0 <= i <= |closes| && |col| == i
      invariant forall k :: 0 <= k < i ==> col[k] == EmaAt(closes, alpha, k)
    {
      var e := if i == 0 then closes[0] else Blend(alpha, closes[i], col[i - 1]);
      assert e == EmaAt(closes, alpha, i);
      col := col + [e];
      i := i + 1;
    }
    forall k | 0 <= k < |col| ensures SeqMin(closes[..k + 1]) <= col[k] <= SeqMax(closes[..k + 1]) {
      assert col[k] == EmaAt(closes, alpha, k);
    }
    forall k | 0 < k < |col| ensures col[k] == Blend(alpha, closes[k], col[k - 1]) {
      assert col[k] == EmaAt(closes, alpha, k) && col[k - 1] == EmaAt(closes, alpha, k - 1);
    }
  }

  /**
   * The value at index `i` depends only on the closes up to `i`: dropping the
   * still-forming last candle does not change the closed candle's EMA.
   */
  lemma {:induction false} EmaCausal(closes: seq<real>, alpha: real, i: nat, j: nat)
    requires 0.0 < alpha <= 1.0
    requires i < j <= |closes|
    ensures EmaAt(closes[..j], alpha, i) == EmaAt(closes, alpha, i)
  {
    if i > 0 {
      EmaCausal(closes, alpha, i - 1, j);
    }
  }

  /** A constant series is its own EMA. */
  lemma {:induction false} EmaOfConstant(closes: seq<real>, alpha: real, i: nat, c: real)
    requires 0.0 < alpha <= 1.0
    requires i < |closes|
    requires forall k :: 0 <= k < |closes| ==> closes[k] == c
    ensures EmaAt(closes, alpha, i) == c
  {
    if i > 0 {
      EmaOfConstant(closes, alpha, i - 1, c);
    }
  }

  /** The spans the EMA touch scanners use. */
  const Span150: nat := 150
  const Span200: nat := 200
  const Span250: nat := 250

  /** EMA(span) of the closes, read at index `i`. */
  function EmaOf(closes: seq<real>, span: nat, i: nat): real
    requires span >= 1 && i < |closes|
  {
    EmaAt(closes, Alpha(span), i)
  }
}

=== FILE: emascan.dfy ===
/**
 * The per-symbol scan step of the EMA touch scanners and the fold of that
 * step over the batches: pencaricoin.py (normal and strict modes),
 * signalmonitor.py (higher-timeframe bias, slope filter, no countertrend)
 * and pencaripercobaan.py (two lines, two batches, merged sorted set).
 */
module EmaScan {
  import opened Wrappers
  import opened Seqs
  import opened Market
  import opened Ordering
  import opened Ranking
  import opened Batching
  import opened Conditions

  /** EMA_EXTRA + 5: the history a symbol needs before it is evaluated. */
  const MinCandles: nat := 255
  /** EMA_SLOW + 2 in the two-line scanner. */
  const MinCandlesTwoLine: nat := 202

  /** Each symbol's candle fetch for a timeframe, None when `safe_fetch` gave up. */
  type Fetcher = (string, Timeframe) -> Option<seq<Candle>>

  // ---------------------------------------------------------------------
  // Outcomes and the stats tally
  // ---------------------------------------------------------------------

  /** What one symbol does to the scan: skipped silently, filtered, or scanned with its trend and touches. */
  datatype Outcome = Skipped | Filtered | Scanned(trend: Trend, on150: bool, on200: bool, on250: bool)

  datatype Stats = Stats(scanned: nat, filtered: nat, ema150: nat, ema200: nat, ema250: nat, bullish: nat, bearish: nat)

  /** The three result lists, entries `"{base} ({trend})"`. */
  datatype Lists = Lists(ema150: seq<string>, ema200: seq<string>, ema250: seq<string>)

  datatype Tally = Tally(stats: Stats, lists: Lists)

  const NoStats := Stats(0, 0, 0, 0, 0, 0, 0)
  const NoLists := Lists([], [], [])
  const NoTally := Tally(NoStats, NoLists)

  function Concat(a: Lists, b: Lists): Lists {
    Lists(a.ema150 + b.ema150, a.ema200 + b.ema200, a.ema250 + b.ema250)
  }

  /** The counters agree with the lists and with each other. */
  predicate Consistent(t: Tally) {
    && t.stats.bullish + t.stats.bearish == t.stats.scanned
    && t.stats.ema150 == |t.lists.ema150|
    && t.stats.ema200 == |t.lists.ema200|
    && t.stats.ema250 == |t.lists.ema250|
  }

  function TrendLabel(t: Trend): string {
    match t
    case Bullish => "Bullish 📈"
    case Bearish => "Bearish 📉"
  }

  /** `f"{base} ({trend})"`. */
  function Entry(sym: string, t: Trend): string {
    BaseAsset(sym) + " (" + TrendLabel(t) + ")"
  }

  /** The three EMA lines a scan reports on. */
  datatype ReportLine = R150 | R200 | R250

  /** The list a line's entries go to. */
  function ListOf(l: Lists, line: ReportLine): seq<string> {
    match line
    case R150 => l.ema150
    case R200 => l.ema200
    case R250 => l.ema250
  }

  /** Whether a scanned outcome touches the line; false for a skip or a filter. */
  predicate OnLine(o: Outcome, line: ReportLine) {
    o.Scanned? && match line
      case R150 => o.on150
      case R200 => o.on200
      case R250 => o.on250
  }

  function AppendIf(xs: seq<string>, b: bool, x: string): seq<string> {
    if b then xs + [x] else xs
  }

  function Bump(n: nat, b: bool): nat {
    if b then n + 1 else n
  }

  /**
   * One symbol's effect on `stats` and the result lists. A skip changes
   * nothing; a filter adds one to `filtered` and to nothing else; a scan adds
   * one to `scanned` and to exactly one of `bullish`/`bearish`, and each
   * touched line grows its counter and its list together.
   */
  function Record(t: Tally, sym: string, o: Outcome): (r: Tally)
    ensures Consistent(t) ==> Consistent(r)
    ensures o.Skipped? ==> r == t
    ensures o.Filtered? ==> r == Tally(t.stats.(filtered := t.stats.filtered + 1), t.lists)
    ensures o.Scanned? ==> && r.stats.scanned == t.stats.scanned + 1 && r.stats.filtered == t.stats.filtered
                           && (r.stats.bullish == t.stats.bullish + 1) == (o.trend == Bullish)
                           && (r.stats.bearish == t.stats.bearish + 1) == (o.trend == Bearish)
    ensures forall line :: ListOf(r.lists, line) ==
              if OnLine(o, line) then ListOf(t.lists, line) + [Entry(sym, o.trend)] else ListOf(t.lists, line)
  {
    match o
    case Skipped => t
    case Filtered => Tally(t.stats.(filtered := t.stats.filtered + 1), t.lists)
    case Scanned(trend, on150, on200, on250) =>
      var s := t.stats;
      var e := Entry(sym, trend);
      Tally(Stats(s.scanned + 1, s.filtered,
                  Bump(s.ema150, on150), Bump(s.ema200, on200), Bump(s.ema250, on250),
                  Bump(s.bullish, trend == Bullish), Bump(s.bearish, trend == Bearish)),
            Lists(AppendIf(t.lists.ema150, on150, e), AppendIf(t.lists.ema200, on200, e),
                  AppendIf(t.lists.ema250, on250, e)))
  }

  /** Symbols whose outcome is a skip. */
  function Skips(outcome: string -> Outcome, syms: seq<string>): nat {
    if |syms| == 0 then 0 else (if outcome(syms[0]).Skipped? then 1 else 0) + Skips(outcome, syms[1..])
  }

  /**
   * `for sym in symbols`: the step applied to each symbol in turn. Every
   * symbol is skipped, filtered or scanned, exactly one of the three, and the
   * counters stay consistent.
   */
  function ScanSymbols(outcome: string -> Outcome, syms: seq<string>, t: Tally): (r: Tally)
    ensures Consistent(t) ==> Consistent(r)
    ensures r.stats.scanned + r.stats.filtered + Skips(outcome, syms) == t.stats.scanned + t.stats.filtered + |syms|
    decreases |syms|
  {
    if |syms| == 0 then t else ScanSymbols(outcome, syms[1..], Record(t, syms[0], outcome(syms[0])))
  }

  lemma {:induction false} ScanAppend(outcome: string -> Outcome, a: seq<string>, b: seq<string>, t: Tally)
    ensures ScanSymbols(outcome, a + b, t) == ScanSymbols(outcome, b, ScanSymbols(outcome, a, t))
    decreases |a|
  {
    if |a| == 0 {
      assert a + b == b;
    } else {
      assert (a + b)[1..] == a[1..] + b;
      ScanAppend(outcome, a[1..], b, Record(t, a[0], outcome(a[0])));
    }
  }

  /** The line's hit predicate: the symbol is scanned and touches the line. */
  function HitsLine(outcome: string -> Outcome, line: ReportLine): string -> bool {
    s => OnLine(outcome(s), line)
  }

  /** The entry a scanned symbol adds: `"{base} ({trend})"`. */
  function EntryOf(outcome: string -> Outcome): string -> string {
    s => if outcome(s).Scanned? then Entry(s, outcome(s).trend) else ""
  }

  /**
   * What a line's list holds after a scan: the earlier entries followed by
   * one entry for every scanned symbol that touches the line, in scan order.
   */
  lemma {:induction false} ScanLists(outcome: string -> Outcome, syms: seq<string>, t: Tally, line: ReportLine)
    ensures ListOf(ScanSymbols(outcome, syms, t).lists, line)
            == ListOf(t.lists, line) + Select(HitsLine(outcome, line), EntryOf(outcome), syms)
    decreases |syms|
  {
    if |syms| == 0 {
      assert ListOf(t.lists, line) + [] == ListOf(t.lists, line);
    } else {
      var next := Record(t, syms[0], outcome(syms[0]));
      ScanLists(outcome, syms[1..], next, line);
      var rest := Select(HitsLine(outcome, line), EntryOf(outcome), syms[1..]);
      if HitsLine(outcome, line)(syms[0]) {
        var e := EntryOf(outcome)(syms[0]);
        assert Select(HitsLine(outcome, line), EntryOf(outcome), syms) == [e] + rest;
        assert ListOf(next.lists, line) == ListOf(t.lists, line) + [e];
        assert (ListOf(t.lists, line) + [e]) + rest == ListOf(t.lists, line) + ([e] + rest);
      } else {
        assert Select(HitsLine(outcome, line), EntryOf(outcome), syms) == rest;
        assert ListOf(next.lists, line) == ListOf(t.lists, line);
      }
    }
  }

  /** Lists already collected are a prefix that the rest of the scan never touches. */
  lemma {:induction false} ListsShift(outcome: string -> Outcome, syms: seq<string>, st: Stats, l: Lists, m: Lists)
    ensures var alone := ScanSymbols(outcome, syms, Tally(st, m));
      ScanSymbols(outcome, syms, Tally(st, Concat(l, m))) == Tally(alone.stats, Concat(l, alone.lists))
    decreases |syms|
  {
    if |syms| > 0 {
      var next := Record(Tally(st, m), syms[0], outcome(syms[0]));
      assert Record(Tally(st, Concat(l, m)), syms[0], outcome(syms[0])) == Tally(next.stats, Concat(l, next.lists));
      ListsShift(outcome, syms[1..], next.stats, l, next.lists);
    }
  }

  /**
   * The batch loop of `run_scan`/`scan`: each `scan_batch` starts with empty
   * lists and the shared `stats`, and its lists are appended to the totals.
   */
  function RunBatches(outcome: string -> Outcome, batches: seq<seq<string>>, t: Tally): Tally {
    if |batches| == 0 then t
    else
      var b := ScanSymbols(outcome, batches[0], Tally(t.stats, NoLists));
      RunBatches(outcome, batches[1..], Tally(b.stats, Concat(t.lists, b.lists)))
  }

  /** Scanning batch by batch is scanning the concatenated batches in one pass. */
  lemma {:induction false} BatchesScanLikeFlatList(outcome: string -> Outcome, batches: seq<seq<string>>, t: Tally)
    ensures RunBatches(outcome, batches, t) == ScanSymbols(outcome, Flatten(batches), t)
  {
    if |batches| > 0 {
      var b := ScanSymbols(outcome, batches[0], Tally(t.stats, NoLists));
      assert Concat(t.lists, NoLists) == t.lists;
      ListsShift(outcome, batches[0], t.stats, t.lists, NoLists);
      ScanAppend(outcome, batches[0], Flatten(batches[1..]), t);
      BatchesScanLikeFlatList(outcome, batches[1..], Tally(b.stats, Concat(t.lists, b.lists)));
    }
  }

  // ---------------------------------------------------------------------
  // pencaricoin.py
  // ---------------------------------------------------------------------

  datatype Mode = Normal | Strict

  /** The mode's candle filter on the closed row. */
  predicate Passes(mode: Mode, r: Row) {
    match mode
    case Normal => ActiveCandle(r.candle)
    case Strict => StrictCandle(r)
  }

  /** A scanned row: its trend and, line by line, whether the EMA touches the candle. */
  function Classify(r: Row): (o: Outcome)
    ensures o.Scanned? && (o.trend == Bullish <==> r.ema150 > r.ema200)
    ensures r.candle.close >= 0.0 && r.candle.low <= r.ema150 <= r.candle.high ==> o.on150
    ensures r.candle.close >= 0.0 && r.candle.low <= r.ema200 <= r.candle.high ==> o.on200
    ensures r.candle.close >= 0.0 && r.candle.low <= r.ema250 <= r.candle.high ==> o.on250
    ensures o.on150 == Touches(r.candle, r.ema150) && o.on200 == Touches(r.candle, r.ema200)
            && o.on250 == Touches(r.candle, r.ema250)
  {
    Scanned(TrendOf(r), Touches(r.candle, r.ema150), Touches(r.candle, r.ema200), Touches(r.candle, r.ema250))
  }

  /** pencaricoin's `scan_batch` body for one symbol, given its 5m fetch. */
  function CoinOutcome(fetched: Option<seq<Candle>>, mode: Mode): (o: Outcome)
    ensures o.Skipped? <==> !Usable(fetched) || |fetched.value| < MinCandles
    ensures o.Filtered? <==> Usable(fetched) && |fetched.value| >= MinCandles && !Passes(mode, ClosedRow(fetched.value))
    ensures o.Scanned? ==> Passes(mode, ClosedRow(fetched.value))
  {
    if !Usable(fetched) || |fetched.value| < MinCandles then Skipped
    else
      var row := ClosedRow(fetched.value);
      if !Passes(mode, row) then Filtered else Classify(row)
  }

  function CoinOutcomes(fetch: Fetcher, mode: Mode): string -> Outcome {
    s => CoinOutcome(fetch(s, M5), mode)
  }

  /**
   * `run_scan`: the top 200 symbols by volume, cut into the fixed grid of
   * four batches of 50, scanned batch by batch. The totals are those of one
   * pass over the selected symbols, with consistent counters.
   */
  function CoinScan(ts: seq<Ticker>, fetch: Fetcher, mode: Mode): (r: Tally)
    requires DistinctSymbols(ts)
    ensures Consistent(r)
    ensures r == ScanSymbols(CoinOutcomes(fetch, mode), TopVolumeSymbols(ts, TopN200), NoTally)
  {
    var symbols := TopVolumeSymbols(ts, TopN200);
    var batches := FixedBatches(symbols, TopN200, BatchSize50);
    BatchesScanLikeFlatList(CoinOutcomes(fetch, mode), batches, NoTally);
    RunBatches(CoinOutcomes(fetch, mode), batches, NoTally)
  }

  /**
   * The contents of `run_scan`'s lists: a line's list holds, in scan order,
   * one entry per top-200 symbol that is scanned and touches that line; an
   * entry is in the list exactly when some such symbol produced it.
   */
  lemma CoinScanLists(ts: seq<Ticker>, fetch: Fetcher, mode: Mode, line: ReportLine, e: string)
    requires DistinctSymbols(ts)
    ensures var syms := TopVolumeSymbols(ts, TopN200);
      ListOf(CoinScan(ts, fetch, mode).lists, line)
        == Select(HitsLine(CoinOutcomes(fetch, mode), line), EntryOf(CoinOutcomes(fetch, mode)), syms)
    ensures var syms := TopVolumeSymbols(ts, TopN200);
      e in ListOf(CoinScan(ts, fetch, mode).lists, line) <==>
        exists j :: 0 <= j < |syms| && OnLine(CoinOutcome(fetch(syms[j], M5), mode), line)
                    && e == Entry(syms[j], CoinOutcome(fetch(syms[j], M5), mode).trend)
  {
    var syms := TopVolumeSymbols(ts, TopN200);
    var outcome := CoinOutcomes(fetch, mode);
    ScanLists(outcome, syms, NoTally, line);
    assert ListOf(NoLists, line) == [];
    SelectMembers(HitsLine(outcome, line), EntryOf(outcome), syms, e);
  }

  /** The report: "no signal" when every list is empty, otherwise each list as `sorted(set(...))`. */
  datatype Report = NoSignal(stats: Stats) | Summary(ema150: seq<string>, ema200: seq<string>, ema250: seq<string>, stats: Stats)

  function Summarize(t: Tally): (r: Report)
    ensures r.Summary? && r.stats == t.stats
    ensures StrictlySorted(r.ema150) && StrictlySorted(r.ema200) && StrictlySorted(r.ema250)
    ensures forall e :: (e in r.ema150 <==> e in t.lists.ema150) && (e in r.ema200 <==> e in t.lists.ema200)
                        && (e in r.ema250 <==> e in t.lists.ema250)
  {
    Summary(SortedSet(t.lists.ema150), SortedSet(t.lists.ema200), SortedSet(t.lists.ema250), t.stats)
  }

  /** `if not any(all_results.values())`: the no-signal reply, else the sorted summary. */
  function CoinReport(t: Tally): (r: Report)
    ensures r.NoSignal? <==> t.lists == NoLists
    ensures r.Summary? ==> r == Summarize(t)
    ensures r.Summary? ==> forall e :: e in r.ema150 <==> e in t.lists.ema150
  {
    if t.lists == NoLists then NoSignal(t.stats) else Summarize(t)
  }

  // ---------------------------------------------------------------------
  // signalmonitor.py
  // ---------------------------------------------------------------------

  /**
   * signalmonitor's `scan_batch` body for one symbol, given its bias and
   * its 5m fetch. The filters run in the order candle activity, EMA200
   * slope, countertrend; a symbol without bias is filtered before any 5m
   * data is read.
   */
  function MonitorOutcome(bias: Option<Trend>, entry: Option<seq<Candle>>): (o: Outcome)
    ensures bias.None? ==> o == Filtered
    ensures bias.Some? ==> (o.Skipped? <==> !Usable(entry) || |entry.value| < MinCandles)
    ensures o.Scanned? ==> bias == Some(o.trend)
    ensures o.Scanned? ==> ActiveCandle(Closed(entry.value)) && EmaSlopeOk(Ema200Column(entry.value))
    ensures bias.Some? && Usable(entry) && |entry.value| >= MinCandles ==>
      (o.Filtered? <==> !ActiveCandle(Closed(entry.value)) || !EmaSlopeOk(Ema200Column(entry.value))
                        || TrendOf(ClosedRow(entry.value)) != bias.value)
  {
    if bias.None? then Filtered
    else if !Usable(entry) || |entry.value| < MinCandles then Skipped
    else
      var row := ClosedRow(entry.value);
      if !ActiveCandle(row.candle) then Filtered
      else if !EmaSlopeOk(Ema200Column(entry.value)) then Filtered
      else if TrendOf(row) != bias.value then Filtered
      else Classify(row)
  }

  function MonitorOutcomes(fetch: Fetcher): string -> Outcome {
    s => MonitorOutcome(HtfBias(fetch(s, M15), fetch(s, H1)), fetch(s, M5))
  }

  /**
   * The 5m frame is read only behind a bias: two exchanges that agree on a
   * symbol's 15m and 1h frames, and on its 5m frame wherever those give a
   * bias, produce the same scan. A symbol without bias is filtered whatever
   * its 5m fetch would have returned.
   */
  lemma {:induction false} FiveMinuteReadOnlyWithBias(f: Fetcher, g: Fetcher, syms: seq<string>, t: Tally)
    requires forall s :: s in syms ==> f(s, M15) == g(s, M15) && f(s, H1) == g(s, H1)
    requires forall s :: s in syms && HtfBias(f(s, M15), f(s, H1)).Some? ==> f(s, M5) == g(s, M5)
    ensures forall s :: s in syms && HtfBias(f(s, M15), f(s, H1)).None? ==>
      MonitorOutcomes(f)(s) == Filtered && MonitorOutcomes(g)(s) == Filtered
    ensures ScanSymbols(MonitorOutcomes(f), syms, t) == ScanSymbols(MonitorOutcomes(g), syms, t)
    decreases |syms|
  {
    if |syms| > 0 {
      var s := syms[0];
      assert MonitorOutcomes(f)(s) == MonitorOutcomes(g)(s);
      FiveMinuteReadOnlyWithBias(f, g, syms[1..], Record(t, s, MonitorOutcomes(f)(s)));
    }
  }

  function BiasedTo(fetch: Fetcher, t: Trend): string -> bool {
    s => HtfBias(fetch(s, M15), fetch(s, H1)) == Some(t)
  }

  /**
   * No countertrend: the bullish count grows only on symbols with a bullish
   * bias and the bearish count only on symbols with a bearish one.
   */
  lemma {:induction false} NoCountertrend(fetch: Fetcher, syms: seq<string>, t: Tally)
    ensures var r := ScanSymbols(MonitorOutcomes(fetch), syms, t);
      && t.stats.bullish <= r.stats.bullish <= t.stats.bullish + |Filter(BiasedTo(fetch, Bullish), syms)|
      && t.stats.bearish <= r.stats.bearish <= t.stats.bearish + |Filter(BiasedTo(fetch, Bearish), syms)|
    decreases |syms|
  {
    if |syms| > 0 {
      var bias := HtfBias(fetch(syms[0], M15), fetch(syms[0], H1));
      var o := MonitorOutcomes(fetch)(syms[0]);
      assert o == MonitorOutcome(bias, fetch(syms[0], M5));
      var next := Record(t, syms[0], o);
      assert next.stats.bullish > t.stats.bullish ==> o.Scanned? && o.trend == Bullish;
      assert next.stats.bearish > t.stats.bearish ==> o.Scanned? && o.trend == Bearish;
      assert next.stats.bullish > t.stats.bullish ==> BiasedTo(fetch, Bullish)(syms[0]);
      assert next.stats.bearish > t.stats.bearish ==> BiasedTo(fetch, Bearish)(syms[0]);
      NoCountertrend(fetch, syms[1..], next);
    }
  }

  /** signalmonitor's `scan`: the same selection and grid as pencaricoin, with the bias-gated step. */
  function MonitorScan(ts: seq<Ticker>, fetch: Fetcher): (r: Tally)
    requires DistinctSymbols(ts)
    ensures Consistent(r)
    ensures r == ScanSymbols(MonitorOutcomes(fetch), TopVolumeSymbols(ts, TopN200), NoTally)
  {
    var symbols := TopVolumeSymbols(ts, TopN200);
    var batches := FixedBatches(symbols, TopN200, BatchSize50);
    BatchesScanLikeFlatList(MonitorOutcomes(fetch), batches, NoTally);
    RunBatches(MonitorOutcomes(fetch), batches, NoTally)
  }

  /**
   * The contents of signalmonitor's lists: an entry is in a line's list
   * exactly when some top-200 symbol with a bias is scanned, touches that
   * line and produces it; its trend is then the bias.
   */
  lemma MonitorScanLists(ts: seq<Ticker>, fetch: Fetcher, line: ReportLine, e: string)
    requires DistinctSymbols(ts)
    ensures var syms := TopVolumeSymbols(ts, TopN200);
      ListOf(MonitorScan(ts, fetch).lists, line)
        == Select(HitsLine(MonitorOutcomes(fetch), line), EntryOf(MonitorOutcomes(fetch)), syms)
    ensures var syms := TopVolumeSymbols(ts, TopN200);
      e in ListOf(MonitorScan(ts, fetch).lists, line) <==>
        exists j :: 0 <= j < |syms| && OnLine(MonitorOutcomes(fetch)(syms[j]), line)
                    && HtfBias(fetch(syms[j], M15), fetch(syms[j], H1)) == Some(MonitorOutcomes(fetch)(syms[j]).trend)
                    && e == Entry(syms[j], MonitorOutcomes(fetch)(syms[j]).trend)
  {
    var syms := TopVolumeSymbols(ts, TopN200);
    var outcome := MonitorOutcomes(fetch);
    ScanLists(outcome, syms, NoTally, line);
    assert ListOf(NoLists, line) == [];
    SelectMembers(HitsLine(outcome, line), EntryOf(outcome), syms, e);
    forall j | 0 <= j < |syms| && OnLine(outcome(syms[j]), line)
      ensures HtfBias(fetch(syms[j], M15), fetch(syms[j], H1)) == Some(outcome(syms[j]).trend)
    {
      assert outcome(syms[j]) == MonitorOutcome(HtfBias(fetch(syms[j], M15), fetch(syms[j], H1)), fetch(syms[j], M5));
    }
  }

  /**
   * The symbol loop as written: `get_htf_bias` is not guarded, so the first
   * symbol whose higher-timeframe history is a single candle raises out of
   * the whole scan and no report is produced.
   */
  function MonitorScanAsWritten(fetch: Fetcher, syms: seq<string>, t: Tally): (r: Result<Tally, BiasError>)
    ensures r.Success? ==> Consistent(t) ==> Consistent(r.value)
    decreases |syms|
  {
    if |syms| == 0 then Success(t)
    else
      var s := syms[0];
      match HtfBiasAsWritten(fetch(s, M15), fetch(s, H1))
      case Failure(e) => Failure(e)
      case Success(bias) => MonitorScanAsWritten(fetch, syms[1..], Record(t, s, MonitorOutcome(bias, fetch(s, M5))))
  }

  /** A symbol whose higher-timeframe fetches give a one-candle history. */
  predicate ShortHistory(fetch: Fetcher, s: string) {
    HtfBiasAsWritten(fetch(s, M15), fetch(s, H1)).Failure?
  }

  /** Without one-candle histories the loop as written computes the corrected scan. */
  lemma {:induction false} AsWrittenAgreesWithoutShortHistory(fetch: Fetcher, syms: seq<string>, t: Tally)
    requires forall k :: 0 <= k < |syms| ==> !ShortHistory(fetch, syms[k])
    ensures MonitorScanAsWritten(fetch, syms, t) == Success(ScanSymbols(MonitorOutcomes(fetch), syms, t))
    decreases |syms|
  {
    if |syms| > 0 {
      HtfBiasAgrees(fetch(syms[0], M15), fetch(syms[0], H1));
      AsWrittenAgreesWithoutShortHistory(fetch, syms[1..], Record(t, syms[0], MonitorOutcomes(fetch)(syms[0])));
    }
  }

  /** One listed symbol with a single 15m candle ends the scan with an error, losing every other symbol's result. */
  lemma {:induction false} ShortHistoryAbortsScan(fetch: Fetcher, syms: seq<string>, t: Tally, k: nat)
    requires k < |syms| && ShortHistory(fetch, syms[k])
    ensures MonitorScanAsWritten(fetch, syms, t).Failure?
    decreases |syms|
  {
    if !ShortHistory(fetch, syms[0]) {
      HtfBiasAgrees(fetch(syms[0], M15), fetch(syms[0], H1));
      ShortHistoryAbortsScan(fetch, syms[1..], Record(t, syms[0], MonitorOutcomes(fetch)(syms[0])), k - 1);
    }
  }

  // ---------------------------------------------------------------------
  // pencaripercobaan.py
  // ---------------------------------------------------------------------

  datatype Line = Line150 | Line200

  /** The closed-candle touch of one line on a fetch, after the 202-candle guard. */
  predicate TouchesLine(fetched: Option<seq<Candle>>, line: Line) {
    Usable(fetched) && |fetched.value| >= MinCandlesTwoLine &&
    var row := ClosedRow(fetched.value);
    match line
    case Line150 => Touches(row.candle, row.ema150)
    case Line200 => Touches(row.candle, row.ema200)
  }

  /** The symbols of `syms` whose 5m fetch touches `line`. */
  function Touching(fetch: Fetcher, line: Line): string -> bool {
    s => TouchesLine(fetch(s, M5), line)
  }

  /** One batch's list for a line: `ema150.append(base)` for every touching symbol. */
  function LineHits(fetch: Fetcher, syms: seq<string>, line: Line): seq<string> {
    Select(Touching(fetch, line), BaseAsset, syms)
  }

  /**
   * pencaripercobaan's `scan`: `symbols[:50]` and `symbols[50:]` scanned in
   * turn, each line merged as `sorted(set(batch1 + batch2))`.
   */
  function TwoBatchLine(fetch: Fetcher, symbols: seq<string>, line: Line): (r: seq<string>)
    ensures StrictlySorted(r) && NoDup(r)
    ensures forall b :: b in r <==> Selected(Touching(fetch, line), BaseAsset, symbols, b)
    ensures r == SortedSet(LineHits(fetch, symbols, line))
  {
    var halves := SplitTwo(symbols, BatchSize50);
    var p := Touching(fetch, line);
    SelectAppend(p, BaseAsset, halves.0, halves.1);
    assert forall b :: b in Select(p, BaseAsset, symbols) <==> Selected(p, BaseAsset, symbols, b) by {
      forall b ensures b in Select(p, BaseAsset, symbols) <==> Selected(p, BaseAsset, symbols, b) {
        SelectMembers(p, BaseAsset, symbols, b);
      }
    }
    SortedSet(LineHits(fetch, halves.0, line) + LineHits(fetch, halves.1, line))
  }
}

=== FILE: floats.dfy ===
/**
 * The part of IEEE-754 double arithmetic the scanners can reach: a numpy
 * division by zero does not raise but yields +inf, -inf or NaN, and every
 * ordered comparison with NaN is false. Rounding is not modelled: finite
 * values are exact reals.
 */
module Floats {

  datatype Float = Finite(v: real) | PosInf | NegInf | NaN

  /** numpy `a / b` on float64 operands. */
  function Div(a: real, b: real): (r: Float)
    ensures b != 0.0 ==> r == Finite(a / b)
    ensures b == 0.0 ==> (r == PosInf <==> a > 0.0) && (r == NegInf <==> a < 0.0) && (r == NaN <==> a == 0.0)
  {
    if b != 0.0 then Finite(a / b)
    else if a > 0.0 then PosInf
    else if a < 0.0 then NegInf
    else NaN
  }

  /** Python `abs(x)` on a float. */
  function Abs(x: Float): (r: Float)
    ensures r.Finite? ==> r.v >= 0.0
    ensures r.NaN? <==> x.NaN?
  {
    match x
    case Finite(v) => Finite(if v < 0.0 then -v else v)
    case PosInf => PosInf
    case NegInf => PosInf
    case NaN => NaN
  }

  /** `x < t` for a finite threshold `t`. */
  predicate Less(x: Float, t: real) {
    match x
    case Finite(v) => v < t
    case NegInf => true
    case PosInf => false
    case NaN => false
  }

  /** `x >= t` for a finite threshold `t`. */
  predicate AtLeast(x: Float, t: real) {
    match x
    case Finite(v) => v >= t
    case NegInf => false
    case PosInf => true
    case NaN => false
  }

  /** With a positive divisor the quotient comparison is the cross-multiplied one. */
  lemma LessQuotient(a: real, b: real, t: real)
    requires b > 0.0
    ensures Less(Div(a, b), t) <==> a < t * b
  {
    assert a / b * b == a;
    if a / b < t {
      assert a / b * b < t * b;
    } else {
      assert a / b * b >= t * b;
    }
  }
}

=== FILE: levels.dfy ===
/**
 * bot/utils.py `calc_support_resistance`: local extrema of the lows and
 * highs over a window of `window` candles on each side, of which the last
 * two of each kind are kept for the chart lines.
 */
module Levels {
  import opened Seqs
  import opened Market

  const DefaultWindow: nat := 20

  /**
   * Index `i` is examined (`window <= i < len - window`) and its low equals
   * the minimum of `low.iloc[i - window:i + window]`, a half-open slice that
   * excludes `i + window`. With a zero window the slice is empty, its
   * minimum is NaN, and no equality holds.
   */
  predicate IsSupport(cs: seq<Candle>, w: nat, i: int) {
    0 < w <= i && i + w < |cs| && cs[i].low == SeqMin(Lows(cs)[i - w..i + w])
  }

  /** The mirror test on the highs. */
  predicate IsResistance(cs: seq<Candle>, w: nat, i: int) {
    0 < w <= i && i + w < |cs| && cs[i].high == SeqMax(Highs(cs)[i - w..i + w])
  }

  /** A support is the lowest low of its window, a resistance the highest high. */
  lemma LevelsAreWindowExtremes(cs: seq<Candle>, w: nat, i: int)
    ensures IsSupport(cs, w, i) ==> forall j :: i - w <= j < i + w ==> cs[i].low <= cs[j].low
    ensures IsResistance(cs, w, i) ==> forall j :: i - w <= j < i + w ==> cs[j].high <= cs[i].high
  {
    if IsSupport(cs, w, i) {
      forall j | i - w <= j < i + w ensures cs[i].low <= cs[j].low {
        assert Lows(cs)[i - w..i + w][j - (i - w)] == cs[j].low;
      }
    }
    if IsResistance(cs, w, i) {
      forall j | i - w <= j < i + w ensures cs[j].high <= cs[i].high {
        assert Highs(cs)[i - w..i + w][j - (i - w)] == cs[j].high;
      }
    }
  }

  /** The indices `lo <= i < hi` satisfying `p`, in increasing order. */
  function Qualifying(p: int -> bool, lo: int, hi: int): (r: seq<int>)
    ensures forall k :: 0 <= k < |r| ==> lo <= r[k] < hi && p(r[k])
    ensures forall k, l :: 0 <= k < l < |r| ==> r[k] < r[l]
    ensures forall i :: lo <= i < hi && p(i) ==> i in r
    decreases hi - lo
  {
    if hi <= lo then []
    else Qualifying(p, lo, hi - 1) + if p(hi - 1) then [hi - 1] else []
  }

  function SupportTest(cs: seq<Candle>, w: nat): int -> bool {
    i => IsSupport(cs, w, i)
  }

  function ResistanceTest(cs: seq<Candle>, w: nat): int -> bool {
    i => IsResistance(cs, w, i)
  }

  /** The support indices the loop finds up to (excluding) `hi`. */
  function SupportIndices(cs: seq<Candle>, w: nat, hi: int): (r: seq<int>)
    ensures forall k :: 0 <= k < |r| ==> 0 <= r[k] < |cs| && IsSupport(cs, w, r[k])
  {
    Qualifying(SupportTest(cs, w), w, hi)
  }

  function ResistanceIndices(cs: seq<Candle>, w: nat, hi: int): (r: seq<int>)
    ensures forall k :: 0 <= k < |r| ==> 0 <= r[k] < |cs| && IsResistance(cs, w, r[k])
  {
    Qualifying(ResistanceTest(cs, w), w, hi)
  }

  function LowsAt(cs: seq<Candle>, idx: seq<int>): (r: seq<real>)
    requires forall k :: 0 <= k < |idx| ==> 0 <= idx[k] < |cs|
    ensures |r| == |idx| && forall k :: 0 <= k < |idx| ==> r[k] == cs[idx[k]].low
  {
    seq(|idx|, k requires 0 <= k < |idx| => cs[idx[k]].low)
  }

  function HighsAt(cs: seq<Candle>, idx: seq<int>): (r: seq<real>)
    requires forall k :: 0 <= k < |idx| ==> 0 <= idx[k] < |cs|
    ensures |r| == |idx| && forall k :: 0 <= k < |idx| ==> r[k] == cs[idx[k]].high
  {
    seq(|idx|, k requires 0 <= k < |idx| => cs[idx[k]].high)
  }

  lemma SupportStep(cs: seq<Candle>, w: nat, i: int)
    requires w <= i < |cs| - w
    ensures LowsAt(cs, SupportIndices(cs, w, i + 1)) ==
      LowsAt(cs, SupportIndices(cs, w, i)) + if w > 0 && cs[i].low == SeqMin(Lows(cs)[i - w..i + w]) then [cs[i].low] else []
  {
    assert SupportTest(cs, w)(i) == IsSupport(cs, w, i);
  }

  lemma ResistanceStep(cs: seq<Candle>, w: nat, i: int)
    requires w <= i < |cs| - w
    ensures HighsAt(cs, ResistanceIndices(cs, w, i + 1)) ==
      HighsAt(cs, ResistanceIndices(cs, w, i)) + if w > 0 && cs[i].high == SeqMax(Highs(cs)[i - w..i + w]) then [cs[i].high] else []
  {
    assert ResistanceTest(cs, w)(i) == IsResistance(cs, w, i);
  }

  lemma LastTwoAt(cs: seq<Candle>, idx: seq<int>)
    requires forall k :: 0 <= k < |idx| ==> 0 <= idx[k] < |cs|
    ensures LastTwo(LowsAt(cs, idx)) == LowsAt(cs, LastTwo(idx))
    ensures LastTwo(HighsAt(cs, idx)) == HighsAt(cs, LastTwo(idx))
  {
  }

  /** The loop's support half: the low of every support, in index order. */
  method CollectSupports(cs: seq<Candle>, w: nat) returns (found: seq<real>)
    ensures found == LowsAt(cs, SupportIndices(cs, w, |cs| - w))
  {
    found := [];
    var i: int := w;
    while i < |cs| - w
      invariant w <= i && (i <= |cs| - w || i == w)
      invariant found == LowsAt(cs, SupportIndices(cs, w, i))
      decreases |cs| - w - i
    {
      SupportStep(cs, w, i);
      var lowest := w > 0 && cs[i].low == SeqMin(Lows(cs)[i - w..i + w]);
      found := found + if lowest then [cs[i].low] else [];
      i := i + 1;
    }
  }

  /** The loop's resistance half: the high of every resistance, in index order. */
  method CollectResistances(cs: seq<Candle>, w: nat) returns (peaks: seq<real>)
    ensures peaks == HighsAt(cs, ResistanceIndices(cs, w, |cs| - w))
  {
    peaks := [];
    var i: int := w;
    while i < |cs| - w
      invariant w <= i && (i <= |cs| - w || i == w)
      invariant peaks == HighsAt(cs, ResistanceIndices(cs, w, i))
      decreases |cs| - w - i
    {
      ResistanceStep(cs, w, i);
      var highest := w > 0 && cs[i].high == SeqMax(Highs(cs)[i - w..i + w]);
      peaks := peaks + if highest then [cs[i].high] else [];
      i := i + 1;
    }
  }

  /**
   * `calc_support_resistance(df, window)`: one pass over
   * `range(window, len(df) - window)` collects the low of every support and
   * the high of every resistance in index order (the two tests are
   * independent, so the pass is taken here as two), and the last two of
   * each are returned.
   */
  method SupportResistance(cs: seq<Candle>, w: nat) returns (supports: seq<real>, resistances: seq<real>)
    ensures supports == LowsAt(cs, LastTwo(SupportIndices(cs, w, |cs| - w)))
    ensures resistances == HighsAt(cs, LastTwo(ResistanceIndices(cs, w, |cs| - w)))
    ensures |cs| <= 2 * w ==> supports == [] && resistances == []
  {
    var found := CollectSupports(cs, w);
    var peaks := CollectResistances(cs, w);
    LastTwoAt(cs, SupportIndices(cs, w, |cs| - w));
    LastTwoAt(cs, ResistanceIndices(cs, w, |cs| - w));
    supports, resistances := LastTwo(found), LastTwo(peaks);
  }

  /**
   * The supports the chart receives: at most two, each the low of a
   * candle that is the lowest low of its window.
   */
  lemma ReturnedSupports(cs: seq<Candle>, w: nat)
    ensures var idx := LastTwo(SupportIndices(cs, w, |cs| - w));
      && |idx| <= 2
      && forall k :: 0 <= k < |idx| ==>
           (IsSupport(cs, w, idx[k]) && forall j :: idx[k] - w <= j < idx[k] + w ==> cs[idx[k]].low <= cs[j].low)
  {
    var s := SupportIndices(cs, w, |cs| - w);
    forall k | 0 <= k < |LastTwo(s)|
      ensures IsSupport(cs, w, LastTwo(s)[k])
      ensures forall j :: LastTwo(s)[k] - w <= j < LastTwo(s)[k] + w ==> cs[LastTwo(s)[k]].low <= cs[j].low
    {
      assert LastTwo(s)[k] == s[|s| - |LastTwo(s)| + k];
      LevelsAreWindowExtremes(cs, w, LastTwo(s)[k]);
    }
  }

  /**
   * The resistances the chart receives: at most two, each the high of a
   * candle that is the highest high of its window.
   */
  lemma ReturnedResistances(cs: seq<Candle>, w: nat)
    ensures var idx := LastTwo(ResistanceIndices(cs, w, |cs| - w));
      && |idx| <= 2
      && forall k :: 0 <= k < |idx| ==>
           (IsResistance(cs, w, idx[k]) && forall j :: idx[k] - w <= j < idx[k] + w ==> cs[j].high <= cs[idx[k]].high)
  {
    var r := ResistanceIndices(cs, w, |cs| - w);
    forall k | 0 <= k < |LastTwo(r)|
      ensures IsResistance(cs, w, LastTwo(r)[k])
      ensures forall j :: LastTwo(r)[k] - w <= j < LastTwo(r)[k] + w ==> cs[j].high <= cs[LastTwo(r)[k]].high
    {
      assert LastTwo(r)[k] == r[|r| - |LastTwo(r)| + k];
      LevelsAreWindowExtremes(cs, w, LastTwo(r)[k]);
    }
  }
}

=== FILE: market.dfy ===
/** Market data as the scanners see it: candles, symbols and timeframes. */
module Market {
  import opened Wrappers

  /** One OHLCV row as returned by `fetch_ohlcv` (the timestamp is in milliseconds). */
  datatype Candle = Candle(time: int, open: real, high: real, low: real, close: real, volume: real)

  /** What an exchange guarantees of a candle: open and close lie within [low, high]. */
  predicate WellFormed(c: Candle) {
    c.low <= c.open <= c.high && c.low <= c.close <= c.high
  }

  predicate AllWellFormed(s: seq<Candle>) {
    forall k :: 0 <= k < |s| ==> WellFormed(s[k])
  }

  /**
   * The last fully elapsed candle, `df.iloc[-2]`; the last row of a fresh
   * fetch is still forming.
   */
  function Closed(s: seq<Candle>): Candle
    requires |s| >= 2
  {
    s[|s| - 2]
  }

  function Closes(s: seq<Candle>): (r: seq<real>)
    ensures |r| == |s| && forall k :: 0 <= k < |s| ==> r[k] == s[k].close
  {
    seq(|s|, k requires 0 <= k < |s| => s[k].close)
  }

  function Lows(s: seq<Candle>): (r: seq<real>)
    ensures |r| == |s| && forall k :: 0 <= k < |s| ==> r[k] == s[k].low
  {
    seq(|s|, k requires 0 <= k < |s| => s[k].low)
  }

  function Highs(s: seq<Candle>): (r: seq<real>)
    ensures |r| == |s| && forall k :: 0 <= k < |s| ==> r[k] == s[k].high
  {
    seq(|s|, k requires 0 <= k < |s| => s[k].high)
  }

  /**
   * Python truthiness of what a fetch returned: `if not ohlcv: continue`
   * skips both a failed fetch (`None`) and an empty candle list.
   */
  predicate Usable(fetched: Option<seq<Candle>>) {
    fetched.Some? && |fetched.value| > 0
  }

  /** The linear USDT-margined perpetual contracts: `s.endswith("/USDT:USDT")`. */
  const QuoteSuffix: string := "/USDT:USDT"

  predicate EndsWith(s: string, suffix: string) {
    |suffix| <= |s| && s[|s| - |suffix|..] == suffix
  }

  /** `sym.split("/")[0]`: everything before the first slash. */
  function BaseAsset(sym: string): (r: string)
    ensures |r| <= |sym| && r == sym[..|r|]
    ensures '/' !in r
    ensures |r| < |sym| ==> sym[|r|] == '/'
  {
    if |sym| == 0 || sym[0] == '/' then ""
    else [sym[0]] + BaseAsset(sym[1..])
  }

  /** The candle intervals the scanners request. */
  datatype Timeframe = M5 | M15 | H1 | D1
}

=== FILE: monitor.dfy ===
/**
 * The background monitors: percobaan.py's `ema_touch` and `monitor_loop`
 * pass over the watchlist, and bot/signals.py's `check_signal`, symbol
 * selection and cooldown-gated pass. Both read the EMAs that pandas
 * computes with `adjust=True`; those values arrive on the row.
 */
module Monitor {
  import opened Wrappers
  import opened Seqs
  import opened Market
  import opened Conditions
  import opened Cooldown

  // ---------------------------------------------------------------------
  // percobaan.py
  // ---------------------------------------------------------------------

  /** `len(df) < EMA_SLOW` rows are skipped. */
  const MinRows: nat := 200

  /** A row of percobaan's frame: the candle and its two EMAs. */
  datatype LiveRow = LiveRow(candle: Candle, ema150: real, ema200: real)

  datatype TouchLine = Ema150Touch | Ema200Touch

  predicate Within(c: Candle, ema: real) {
    c.low <= ema <= c.high
  }

  /**
   * `ema_touch` on the last (still-forming) row, with no tolerance: EMA150
   * is reported when it lies in the candle's range, EMA200 only when EMA150
   * does not.
   */
  function EmaTouch(r: LiveRow): (t: Option<TouchLine>)
    ensures t == Some(Ema150Touch) <==> Within(r.candle, r.ema150)
    ensures t == Some(Ema200Touch) <==> !Within(r.candle, r.ema150) && Within(r.candle, r.ema200)
    ensures t == None <==> !Within(r.candle, r.ema150) && !Within(r.candle, r.ema200)
  {
    if Within(r.candle, r.ema150) then Some(Ema150Touch)
    else if Within(r.candle, r.ema200) then Some(Ema200Touch)
    else None
  }

  /** A touch without tolerance is also a touch for the scanners' tolerance band. */
  lemma TouchWithinBand(r: LiveRow)
    requires r.candle.close >= 0.0
    ensures EmaTouch(r) == Some(Ema150Touch) ==> Touches(r.candle, r.ema150)
    ensures EmaTouch(r) == Some(Ema200Touch) ==> Touches(r.candle, r.ema200)
  {
  }

  /** One alert that went out. */
  datatype Alert = Alert(symbol: string, line: TouchLine, time: real)

  /** The state one pass reads and writes: the cooldown table and the alerts sent so far. */
  datatype Pass = Pass(table: Table, alerts: seq<Alert>)

  /**
   * One watchlist symbol in `monitor_loop`: a failed or empty fetch and a
   * frame under 200 rows are skipped; otherwise a touch on the last row
   * goes through the cooldown gate.
   */
  function VisitSymbol(p: Pass, sym: string, fetched: Option<seq<LiveRow>>, now: real): (r: Pass)
    ensures OthersUnchanged(p.table, r.table, sym)
    ensures |r.alerts| == |p.alerts| || |r.alerts| == |p.alerts| + 1
    ensures r.alerts[..|p.alerts|] == p.alerts
    ensures |r.alerts| > |p.alerts| ==>
      && fetched.Some? && |fetched.value| >= MinRows
      && EmaTouch(fetched.value[|fetched.value| - 1]) == Some(r.alerts[|p.alerts|].line)
      && r.alerts[|p.alerts|].symbol == sym && r.alerts[|p.alerts|].time == now
      && now - LastFired(p.table, sym) >= TouchCooldown
    ensures |r.alerts| == |p.alerts| ==> r.table == p.table
    ensures Touched(fetched) && now - LastFired(p.table, sym) >= TouchCooldown ==>
      && |r.alerts| == |p.alerts| + 1
      && r.alerts[|p.alerts|] == Alert(sym, EmaTouch(fetched.value[|fetched.value| - 1]).value, now)
      && r.table == p.table[sym := now]
  {
    if fetched.None? || |fetched.value| == 0 || |fetched.value| < MinRows then p
    else
      match EmaTouch(fetched.value[|fetched.value| - 1])
      case None => p
      case Some(line) =>
        var g := TouchGate(p.table, sym, now);
        if g.fire then Pass(g.table, p.alerts + [Alert(sym, line, now)]) else p
  }

  /**
   * One iteration of `monitor_loop`: nothing at all while the monitor is
   * off; otherwise every watchlist symbol is fetched and visited in order.
   * `fetch` and `clock` give each symbol's frame and the time of its visit.
   */
  function MonitorPass(on: bool, watchlist: seq<string>, fetch: string -> Option<seq<LiveRow>>,
                       clock: string -> real, p: Pass): (r: (Pass, seq<string>))
    ensures !on ==> r == (p, [])
    ensures on ==> r.1 == watchlist
    ensures |p.alerts| <= |r.0.alerts| && r.0.alerts[..|p.alerts|] == p.alerts
    ensures forall k :: |p.alerts| <= k < |r.0.alerts| ==> r.0.alerts[k].symbol in watchlist
    decreases |watchlist|
  {
    if !on || |watchlist| == 0 then (p, [])
    else
      var sym := watchlist[0];
      var next := VisitSymbol(p, sym, fetch(sym), clock(sym));
      var rest := MonitorPass(on, watchlist[1..], fetch, clock, next);
      assert rest.0.alerts[..|p.alerts|] == p.alerts by {
        assert rest.0.alerts[..|p.alerts|] == rest.0.alerts[..|next.alerts|][..|p.alerts|];
      }
      assert forall k :: |p.alerts| <= k < |rest.0.alerts| ==> rest.0.alerts[k].symbol in watchlist by {
        forall k | |p.alerts| <= k < |rest.0.alerts| ensures rest.0.alerts[k].symbol in watchlist {
          if k >= |next.alerts| {
            assert rest.0.alerts[k].symbol in watchlist[1..];
          } else {
            assert rest.0.alerts[k] == rest.0.alerts[..|next.alerts|][k] == next.alerts[k];
          }
        }
      }
      (rest.0, [sym] + rest.1)
  }

  /** A frame whose last row the pass sends to the cooldown gate: usable, at least 200 rows, and touched. */
  predicate Touched(fetched: Option<seq<LiveRow>>) {
    fetched.Some? && |fetched.value| >= MinRows && EmaTouch(fetched.value[|fetched.value| - 1]).Some?
  }

  /** The gate attempts one symbol contributes: one when its frame is touched, none otherwise. */
  function VisitAttempts(sym: string, fetched: Option<seq<LiveRow>>, now: real): seq<Attempt> {
    if Touched(fetched) then [Attempt(sym, now)] else []
  }

  /** The gate attempts of one pass: the touched watchlist symbols, in order, with their visit times. */
  function TouchAttempts(watchlist: seq<string>, fetch: string -> Option<seq<LiveRow>>,
                         clock: string -> real): (r: seq<Attempt>)
    ensures |r| <= |watchlist|
    ensures forall a :: a in r ==> a.symbol in watchlist && Touched(fetch(a.symbol)) && a.now == clock(a.symbol)
    decreases |watchlist|
  {
    if |watchlist| == 0 then []
    else
      var sym := watchlist[0];
      var rest := TouchAttempts(watchlist[1..], fetch, clock);
      assert forall a :: a in rest ==> a.symbol in watchlist by {
        assert forall x :: x in watchlist[1..] ==> x in watchlist;
      }
      VisitAttempts(sym, fetch(sym), clock(sym)) + rest
  }

  /** The gate's view of the alerts: who and when, without the line. */
  function AsAttempts(alerts: seq<Alert>): (r: seq<Attempt>)
    ensures |r| == |alerts|
    ensures forall k :: 0 <= k < |alerts| ==> r[k] == Attempt(alerts[k].symbol, alerts[k].time)
  {
    Map((a: Alert) => Attempt(a.symbol, a.time), alerts)
  }

  lemma AsAttemptsAppend(a: seq<Alert>, b: seq<Alert>)
    ensures AsAttempts(a + b) == AsAttempts(a) + AsAttempts(b)
  {
    assert forall k :: 0 <= k < |a + b| ==> AsAttempts(a + b)[k] == (AsAttempts(a) + AsAttempts(b))[k];
  }

  /** The alerts appended over two stages are those of the first stage followed by those of the second. */
  lemma NewAlertsSplit(a: seq<Alert>, b: seq<Alert>, c: seq<Alert>)
    requires |a| <= |b| <= |c| && b[..|a|] == a && c[..|b|] == b
    ensures AsAttempts(c[|a|..]) == AsAttempts(b[|a|..]) + AsAttempts(c[|b|..])
  {
    assert c[|a|..] == b[|a|..] + c[|b|..];
    AsAttemptsAppend(b[|a|..], c[|b|..]);
  }

  /** Visiting one symbol is the cooldown run over the attempts it contributes. */
  lemma VisitIsTouchRun(p: Pass, sym: string, fetched: Option<seq<LiveRow>>, now: real)
    ensures var v := VisitSymbol(p, sym, fetched, now);
      var run := RunTouchGate(p.table, VisitAttempts(sym, fetched, now));
      AsAttempts(v.alerts[|p.alerts|..]) == run.0 && v.table == run.1
  {
    var v := VisitSymbol(p, sym, fetched, now);
    if Touched(fetched) {
      var xs := [Attempt(sym, now)];
      assert xs[1..] == [];
      if TouchGate(p.table, sym, now).fire {
        assert v.alerts[|p.alerts|..] == [v.alerts[|p.alerts|]];
      } else {
        assert v == p;
      }
    } else {
      assert v == p;
    }
  }

  /**
   * A pass with the monitor on is the cooldown run over its touch attempts:
   * the alerts it appends are exactly the run's alerts, and the table it
   * leaves is the run's table.
   */
  lemma {:induction false} MonitorPassIsTouchRun(watchlist: seq<string>, fetch: string -> Option<seq<LiveRow>>,
                                                 clock: string -> real, p: Pass)
    ensures var r := MonitorPass(true, watchlist, fetch, clock, p).0;
      var run := RunTouchGate(p.table, TouchAttempts(watchlist, fetch, clock));
      AsAttempts(r.alerts[|p.alerts|..]) == run.0 && r.table == run.1
    decreases |watchlist|
  {
    var r := MonitorPass(true, watchlist, fetch, clock, p).0;
    if |watchlist| == 0 {
      assert r.alerts[|p.alerts|..] == [];
    } else {
      var sym := watchlist[0];
      var next := VisitSymbol(p, sym, fetch(sym), clock(sym));
      var first := VisitAttempts(sym, fetch(sym), clock(sym));
      var rest := TouchAttempts(watchlist[1..], fetch, clock);
      assert r == MonitorPass(true, watchlist[1..], fetch, clock, next).0;
      assert TouchAttempts(watchlist, fetch, clock) == first + rest;
      VisitIsTouchRun(p, sym, fetch(sym), clock(sym));
      MonitorPassIsTouchRun(watchlist[1..], fetch, clock, next);
      RunTouchGateAppend(p.table, first, rest);
      NewAlertsSplit(p.alerts, next.alerts, r.alerts);
    }
  }

  /** One iteration of the loop: the monitor switch, the watchlist at that time, and what the exchange and clock gave. */
  datatype Round = Round(on: bool, watchlist: seq<string>, fetch: string -> Option<seq<LiveRow>>, clock: string -> real)

  /** `monitor_loop` over successive iterations; the table and the sent alerts carry over. */
  function MonitorLoop(rounds: seq<Round>, p: Pass): (r: Pass)
    ensures |p.alerts| <= |r.alerts| && r.alerts[..|p.alerts|] == p.alerts
    decreases |rounds|
  {
    if |rounds| == 0 then p
    else
      var x := rounds[0];
      var next := MonitorPass(x.on, x.watchlist, x.fetch, x.clock, p).0;
      var r := MonitorLoop(rounds[1..], next);
      assert r.alerts[..|p.alerts|] == r.alerts[..|next.alerts|][..|p.alerts|];
      r
  }

  /** The gate attempts of all iterations, in order; an iteration with the monitor off makes none. */
  function LoopAttempts(rounds: seq<Round>): seq<Attempt>
    decreases |rounds|
  {
    if |rounds| == 0 then []
    else
      var x := rounds[0];
      (if x.on then TouchAttempts(x.watchlist, x.fetch, x.clock) else []) + LoopAttempts(rounds[1..])
  }

  /** The whole loop is one cooldown run over the attempts of all its iterations. */
  lemma {:induction false} MonitorLoopIsTouchRun(rounds: seq<Round>, p: Pass)
    ensures var r := MonitorLoop(rounds, p);
      var run := RunTouchGate(p.table, LoopAttempts(rounds));
      AsAttempts(r.alerts[|p.alerts|..]) == run.0 && r.table == run.1
    decreases |rounds|
  {
    var r := MonitorLoop(rounds, p);
    if |rounds| == 0 {
      assert r.alerts[|p.alerts|..] == [];
    } else {
      var x := rounds[0];
      var next := MonitorPass(x.on, x.watchlist, x.fetch, x.clock, p).0;
      var first := if x.on then TouchAttempts(x.watchlist, x.fetch, x.clock) else [];
      assert r == MonitorLoop(rounds[1..], next);
      assert LoopAttempts(rounds) == first + LoopAttempts(rounds[1..]);
      if x.on {
        MonitorPassIsTouchRun(x.watchlist, x.fetch, x.clock, p);
      } else {
        assert next == p && first == [];
        assert next.alerts[|p.alerts|..] == [];
      }
      MonitorLoopIsTouchRun(rounds[1..], next);
      RunTouchGateAppend(p.table, first, LoopAttempts(rounds[1..]));
      NewAlertsSplit(p.alerts, next.alerts, r.alerts);
    }
  }

  /**
   * The percobaan monitor never alerts twice for one symbol within 300 s,
   * across any number of iterations, and each alert is at least 300 s after
   * the symbol's entry in the table the loop started from.
   */
  lemma MonitorLoopSpaced(rounds: seq<Round>, p: Pass)
    ensures var sent := AsAttempts(MonitorLoop(rounds, p).alerts[|p.alerts|..]);
      && Spaced(sent)
      && forall a :: a in sent ==> a.now - LastFired(p.table, a.symbol) >= TouchCooldown
  {
    MonitorLoopIsTouchRun(rounds, p);
    RunIsSpaced(p.table, LoopAttempts(rounds));
    RunRespectsTable(p.table, LoopAttempts(rounds));
  }

  // ---------------------------------------------------------------------
  // bot/signals.py
  // ---------------------------------------------------------------------

  /** The last row's four EMAs from `calc_indicators`. */
  datatype FourEma = FourEma(ema9: real, ema26: real, ema50: real, ema200: real)

  datatype Direction = Buy | Sell

  /** `check_signal`: BUY on a strictly falling chain ema9 > ema26 > ema50 > ema200, SELL on a strictly rising one. */
  function CheckSignal(e: FourEma): (d: Option<Direction>)
    ensures d == Some(Buy) <==> e.ema9 > e.ema26 > e.ema50 > e.ema200
    ensures d == Some(Sell) <==> e.ema9 < e.ema26 < e.ema50 < e.ema200
  {
    if e.ema9 > e.ema26 > e.ema50 > e.ema200 then Some(Buy)
    else if e.ema9 < e.ema26 < e.ema50 < e.ema200 then Some(Sell)
    else None
  }

  function Negate(e: FourEma): FourEma {
    FourEma(-e.ema9, -e.ema26, -e.ema50, -e.ema200)
  }

  function Opposite(d: Option<Direction>): Option<Direction> {
    match d
    case None => None
    case Some(Buy) => Some(Sell)
    case Some(Sell) => Some(Buy)
  }

  /** Mirroring every EMA swaps BUY and SELL. */
  lemma SignalMirror(e: FourEma)
    ensures CheckSignal(Negate(e)) == Opposite(CheckSignal(e))
  {
  }

  /** Any two equal adjacent EMAs give no signal. */
  lemma TiesGiveNoSignal(e: FourEma)
    requires e.ema9 == e.ema26 || e.ema26 == e.ema50 || e.ema50 == e.ema200
    ensures CheckSignal(e) == None
  {
  }

  /**
   * `symbols = WATCHLIST if MONITOR_MODE == "ALL" else [MONITOR_SYMBOL]`;
   * `MONITOR_SYMBOL` may be None.
   */
  function SignalSymbols(mode: string, watchlist: seq<string>, single: Option<string>): (r: seq<Option<string>>)
    ensures mode == "ALL" ==> |r| == |watchlist| && forall k :: 0 <= k < |r| ==> r[k] == Some(watchlist[k])
    ensures mode != "ALL" ==> r == [single]
  {
    if mode == "ALL" then Map((s: string) => Some(s), watchlist) else [single]
  }

  /** One sent message: the symbol and direction. */
  datatype SignalAlert = SignalAlert(symbol: string, direction: Direction, time: real)

  /**
   * One symbol in bot/signals' loop: a direction passes the strict 900 s
   * gate or is dropped; without a direction the table is not touched.
   */
  function SignalStep(table: Table, sym: string, e: FourEma, now: real): (r: (Table, Option<SignalAlert>))
    ensures CheckSignal(e) == None ==> r == (table, None)
    ensures r.1.Some? <==> CheckSignal(e).Some? && now - LastFired(table, sym) > SignalCooldown
    ensures r.1.Some? ==> r.1.value == SignalAlert(sym, CheckSignal(e).value, now) && r.0 == table[sym := now]
    ensures r.1.None? ==> r.0 == table
  {
    match CheckSignal(e)
    case None => (table, None)
    case Some(d) =>
      var g := SignalGate(table, sym, now);
      if g.fire then (g.table, Some(SignalAlert(sym, d, now))) else (table, None)
  }

  /** One symbol reaching the gate: its last-row EMAs and the clock reading. */
  datatype SignalAttempt = SignalAttempt(symbol: string, emas: FourEma, now: real)

  /** bot/signals' steps over successive symbols: the table afterwards and the alerts sent, in order. */
  function RunSignals(table: Table, xs: seq<SignalAttempt>): (r: (Table, seq<SignalAlert>))
    ensures |r.1| <= |xs|
    decreases |xs|
  {
    if |xs| == 0 then (table, [])
    else
      var step := SignalStep(table, xs[0].symbol, xs[0].emas, xs[0].now);
      var rest := RunSignals(step.0, xs[1..]);
      (rest.0, (if step.1.Some? then [step.1.value] else []) + rest.1)
  }

  lemma {:induction false} RunSignalsAppend(table: Table, a: seq<SignalAttempt>, b: seq<SignalAttempt>)
    ensures RunSignals(table, a + b).1 == RunSignals(table, a).1 + RunSignals(RunSignals(table, a).0, b).1
    ensures RunSignals(table, a + b).0 == RunSignals(RunSignals(table, a).0, b).0
    decreases |a|
  {
    if |a| == 0 {
      assert a + b == b;
    } else {
      var ab := a + b;
      assert ab[0] == a[0] && ab[1..] == a[1..] + b;
      var step := SignalStep(table, a[0].symbol, a[0].emas, a[0].now);
      var head := if step.1.Some? then [step.1.value] else [];
      var tail := RunSignals(step.0, a[1..]);
      var second := RunSignals(tail.0, b);
      RunSignalsAppend(step.0, a[1..], b);
      assert RunSignals(table, ab).1 == head + (tail.1 + second.1);
      assert head + (tail.1 + second.1) == (head + tail.1) + second.1;
    }
  }

  /** Every alert of a run comes strictly more than 900 s after its symbol's entry in the starting table. */
  lemma {:induction false} RunSignalsRespectsTable(table: Table, xs: seq<SignalAttempt>)
    ensures forall a :: a in RunSignals(table, xs).1 ==> a.time - LastFired(table, a.symbol) > SignalCooldown
    decreases |xs|
  {
    if |xs| > 0 {
      var step := SignalStep(table, xs[0].symbol, xs[0].emas, xs[0].now);
      var rest := RunSignals(step.0, xs[1..]);
      RunSignalsRespectsTable(step.0, xs[1..]);
      forall a | a in RunSignals(table, xs).1
        ensures a.time - LastFired(table, a.symbol) > SignalCooldown
      {
        if a in rest.1 {
          assert LastFired(step.0, a.symbol) >= LastFired(table, a.symbol);
        } else {
          assert step.1 == Some(a);
        }
      }
    }
  }

  /** Alerts for one symbol are strictly more than 900 s apart. */
  predicate SignalSpaced(alerts: seq<SignalAlert>) {
    forall i, j :: 0 <= i < j < |alerts| && alerts[i].symbol == alerts[j].symbol ==>
      alerts[j].time - alerts[i].time > SignalCooldown
  }

  /** In any run, the alerts for one symbol are strictly more than 900 s apart. */
  lemma {:induction false} RunSignalsSpaced(table: Table, xs: seq<SignalAttempt>)
    ensures SignalSpaced(RunSignals(table, xs).1)
    decreases |xs|
  {
    if |xs| > 0 {
      var step := SignalStep(table, xs[0].symbol, xs[0].emas, xs[0].now);
      var rest := RunSignals(step.0, xs[1..]);
      RunSignalsSpaced(step.0, xs[1..]);
      if step.1.Some? {
        RunSignalsRespectsTable(step.0, xs[1..]);
        var alerts := [step.1.value] + rest.1;
        assert RunSignals(table, xs).1 == alerts;
        assert LastFired(step.0, xs[0].symbol) == xs[0].now;
        forall i, j | 0 <= i < j < |alerts| && alerts[i].symbol == alerts[j].symbol
          ensures alerts[j].time - alerts[i].time > SignalCooldown
        {
          assert alerts[j] == rest.1[j - 1];
          assert rest.1[j - 1] in rest.1;
          if i > 0 {
            assert alerts[i] == rest.1[i - 1];
          }
        }
      }
    }
  }

  /**
   * The attempts of one pass: the selected symbols in order, each with its
   * frame's EMAs and its clock reading. A `None` symbol makes no attempt.
   */
  function SignalAttempts(symbols: seq<Option<string>>, emas: string -> FourEma, clock: string -> real): (r: seq<SignalAttempt>)
    ensures |r| <= |symbols|
    ensures forall x :: x in r ==> Some(x.symbol) in symbols && x.emas == emas(x.symbol) && x.now == clock(x.symbol)
    decreases |symbols|
  {
    if |symbols| == 0 then []
    else
      var rest := SignalAttempts(symbols[1..], emas, clock);
      assert forall x :: x in rest ==> Some(x.symbol) in symbols by {
        assert forall o :: o in symbols[1..] ==> o in symbols;
      }
      match symbols[0]
      case None => rest
      case Some(sym) => [SignalAttempt(sym, emas(sym), clock(sym))] + rest
  }

  /** One iteration of bot/signals' loop: the switch, the mode, the watchlist and symbol, and what the exchange and clock gave. */
  datatype SignalRound = SignalRound(on: bool, mode: string, watchlist: seq<string>, single: Option<string>,
                                     emas: string -> FourEma, clock: string -> real)

  function RoundAttempts(x: SignalRound): seq<SignalAttempt> {
    if x.on then SignalAttempts(SignalSymbols(x.mode, x.watchlist, x.single), x.emas, x.clock) else []
  }

  /** bot/signals' `monitor_loop`: one pass per iteration, with the table and the sent alerts carried over. */
  function SignalLoop(rounds: seq<SignalRound>, table: Table): (r: (Table, seq<SignalAlert>))
    decreases |rounds|
  {
    if |rounds| == 0 then (table, [])
    else
      var pass := RunSignals(table, RoundAttempts(rounds[0]));
      var rest := SignalLoop(rounds[1..], pass.0);
      (rest.0, pass.1 + rest.1)
  }

  function SignalLoopAttempts(rounds: seq<SignalRound>): seq<SignalAttempt>
    decreases |rounds|
  {
    if |rounds| == 0 then [] else RoundAttempts(rounds[0]) + SignalLoopAttempts(rounds[1..])
  }

  /** The loop is one run over the attempts of all its iterations. */
  lemma {:induction false} SignalLoopIsOneRun(rounds: seq<SignalRound>, table: Table)
    ensures SignalLoop(rounds, table) == RunSignals(table, SignalLoopAttempts(rounds))
    decreases |rounds|
  {
    if |rounds| > 0 {
      var pass := RunSignals(table, RoundAttempts(rounds[0]));
      SignalLoopIsOneRun(rounds[1..], pass.0);
      RunSignalsAppend(table, RoundAttempts(rounds[0]), SignalLoopAttempts(rounds[1..]));
    }
  }

  /**
   * bot/signals never alerts twice for one symbol within 900 s, across any
   * number of iterations, and each alert is strictly more than 900 s after
   * the symbol's entry in the table the loop started from.
   */
  lemma SignalLoopSpaced(rounds: seq<SignalRound>, table: Table)
    ensures SignalSpaced(SignalLoop(rounds, table).1)
    ensures forall a :: a in SignalLoop(rounds, table).1 ==> a.time - LastFired(table, a.symbol) > SignalCooldown
  {
    SignalLoopIsOneRun(rounds, table);
    RunSignalsSpaced(table, SignalLoopAttempts(rounds));
    RunSignalsRespectsTable(table, SignalLoopAttempts(rounds));
  }
}

=== FILE: ordering.dfy ===
/**
 * The two orderings the scanners sort by: a real-valued key in descending
 * order (`sort(key=..., reverse=True)`, `sort_values(ascending=False)`) and
 * Python's code-point lexicographic order on strings (`sorted(set(...))`).
 */
module Ordering {
  import opened Seqs

  // ---------------------------------------------------------------------
  // Descending order by a real key
  // ---------------------------------------------------------------------

  predicate NonIncreasing<T>(s: seq<T>, key: T -> real) {
    forall i, j :: 0 <= i < j < |s| ==> key(s[i]) >= key(s[j])
  }

  /**
   * Inserts `x` in front of the first element whose key does not exceed its
   * own, so an element inserted later stays ahead of equal keys behind it.
   */
  function Insert<T(==)>(x: T, s: seq<T>, key: T -> real): (r: seq<T>)
    requires NonIncreasing(s, key)
    ensures |r| == |s| + 1
    ensures multiset(r) == multiset(s) + multiset{x}
    ensures forall k :: 0 <= k < |r| ==> r[k] == x || r[k] in s
    ensures NonIncreasing(r, key)
  {
    if |s| == 0 || key(s[0]) <= key(x) then [x] + s
    else
      var tail := Insert(x, s[1..], key);
      InsertStep(x, s, tail, key);
      [s[0]] + tail
  }

  /** The recursive case of `Insert`: `x` went into the tail behind a larger head. */
  lemma InsertStep<T>(x: T, s: seq<T>, tail: seq<T>, key: T -> real)
    requires |s| > 0 && NonIncreasing(s, key) && key(s[0]) > key(x)
    requires |tail| == |s| && NonIncreasing(tail, key)
    requires multiset(tail) == multiset(s[1..]) + multiset{x}
    requires forall k :: 0 <= k < |tail| ==> tail[k] == x || tail[k] in s[1..]
    ensures multiset([s[0]] + tail) == multiset(s) + multiset{x}
    ensures forall k :: 0 <= k < |tail| + 1 ==> ([s[0]] + tail)[k] == x || ([s[0]] + tail)[k] in s
    ensures NonIncreasing([s[0]] + tail, key)
  {
    assert s == [s[0]] + s[1..];
    HeadDominates(x, s, tail, key);
    ConsNonIncreasing(s[0], tail, key);
    forall k | 0 <= k < |tail| + 1 ensures ([s[0]] + tail)[k] == x || ([s[0]] + tail)[k] in s {
      if k > 0 {
        assert ([s[0]] + tail)[k] == tail[k - 1];
      }
    }
  }

  lemma PrefixNonIncreasing<T>(s: seq<T>, key: T -> real, n: nat)
    requires NonIncreasing(s, key) && n <= |s|
    ensures NonIncreasing(s[..n], key)
  {
    forall i, j | 0 <= i < j < n ensures key(s[..n][i]) >= key(s[..n][j]) {
      assert s[..n][i] == s[i] && s[..n][j] == s[j];
    }
  }

  lemma HeadDominates<T>(x: T, s: seq<T>, tail: seq<T>, key: T -> real)
    requires |s| > 0 && NonIncreasing(s, key) && key(s[0]) > key(x)
    requires forall k :: 0 <= k < |tail| ==> tail[k] == x || tail[k] in s[1..]
    ensures forall k :: 0 <= k < |tail| ==> key(s[0]) >= key(tail[k])
  {
    forall k | 0 <= k < |tail| ensures key(s[0]) >= key(tail[k]) {
      if tail[k] != x {
        var m :| 0 <= m < |s[1..]| && s[1..][m] == tail[k];
        assert s[m + 1] == tail[k];
      }
    }
  }

  lemma ConsNonIncreasing<T>(h: T, t: seq<T>, key: T -> real)
    requires NonIncreasing(t, key)
    requires forall k :: 0 <= k < |t| ==> key(h) >= key(t[k])
    ensures NonIncreasing([h] + t, key)
  {
    forall i, j | 0 <= i < j < |[h] + t| ensures key(([h] + t)[i]) >= key(([h] + t)[j]) {
      if i > 0 {
        assert ([h] + t)[i] == t[i - 1];
      }
      assert ([h] + t)[j] == t[j - 1];
    }
  }

  /** A descending sort by `key` that keeps the input order of equal keys. */
  function SortDesc<T(==)>(s: seq<T>, key: T -> real): (r: seq<T>)
    ensures multiset(r) == multiset(s)
    ensures |r| == |s|
    ensures NonIncreasing(r, key)
  {
    if |s| == 0 then []
    else
      assert s == [s[0]] + s[1..];
      var r := Insert(s[0], SortDesc(s[1..], key), key);
      assert |r| == |multiset(r)|;
      r
  }

  lemma MultisetMembership<T>(a: seq<T>, b: seq<T>, y: T)
    requires multiset(a) == multiset(b)
    ensures y in a <==> y in b
  {
    assert y in a <==> y in multiset(a);
    assert y in b <==> y in multiset(b);
  }

  lemma {:induction false} InsertKeepsDistinct<T, U>(x: T, s: seq<T>, key: T -> real, id: T -> U)
    requires NonIncreasing(s, key)
    requires NoDupBy(s, id)
    requires forall k :: 0 <= k < |s| ==> id(s[k]) != id(x)
    ensures NoDupBy(Insert(x, s, key), id)
  {
    if |s| > 0 && key(s[0]) > key(x) {
      var tail := Insert(x, s[1..], key);
      InsertKeepsDistinct(x, s[1..], key, id);
      forall k | 0 <= k < |tail| ensures id(tail[k]) != id(s[0]) {
        if tail[k] != x {
          var m :| 0 <= m < |s[1..]| && s[1..][m] == tail[k];
          assert s[m + 1] == tail[k];
        }
      }
    }
  }

  /** Sorting cannot introduce two elements with the same identity. */
  lemma {:induction false} SortKeepsDistinct<T, U>(s: seq<T>, key: T -> real, id: T -> U)
    requires NoDupBy(s, id)
    ensures NoDupBy(SortDesc(s, key), id)
  {
    if |s| > 0 {
      var rest := SortDesc(s[1..], key);
      SortKeepsDistinct(s[1..], key, id);
      forall k | 0 <= k < |rest| ensures id(rest[k]) != id(s[0]) {
        assert rest[k] in multiset(s[1..]);
        var m :| 0 <= m < |s[1..]| && s[1..][m] == rest[k];
        assert s[m + 1] == rest[k];
      }
      InsertKeepsDistinct(s[0], rest, key, id);
    }
  }

  /**
   * Whatever a descending sort leaves out of its first `m` places has a key no
   * larger than anything it kept: `sorted(...)[:m]` really is a top-m.
   */
  lemma TopPrefixDominates<T>(s: seq<T>, key: T -> real, m: nat, x: T)
    requires x in s
    requires x !in SortDesc(s, key)[..Min(m, |s|)]
    ensures forall k :: 0 <= k < Min(m, |s|) ==> key(SortDesc(s, key)[k]) >= key(x)
  {
    var r := SortDesc(s, key);
    MultisetMembership(s, r, x);
    var p :| 0 <= p < |r| && r[p] == x;
  }

  lemma {:induction false} FilterCountMultiset<T>(p: T -> bool, s: seq<T>, x: T)
    ensures multiset(Filter(p, s))[x] == if p(x) then multiset(s)[x] else 0
  {
    if |s| > 0 {
      FilterCountMultiset(p, s[1..], x);
      assert s == [s[0]] + s[1..];
    }
  }

  /** Two permutations of each other have equally many elements satisfying `p`. */
  lemma FilterCountPermutation<T>(p: T -> bool, a: seq<T>, b: seq<T>)
    requires multiset(a) == multiset(b)
    ensures |Filter(p, a)| == |Filter(p, b)|
  {
    forall x ensures multiset(Filter(p, a))[x] == multiset(Filter(p, b))[x] {
      FilterCountMultiset(p, a, x);
      FilterCountMultiset(p, b, x);
    }
    assert multiset(Filter(p, a)) == multiset(Filter(p, b));
    assert |multiset(Filter(p, a))| == |Filter(p, a)|;
    assert |multiset(Filter(p, b))| == |Filter(p, b)|;
  }

  lemma {:induction false} FilterNoneEmpty<T>(p: T -> bool, s: seq<T>)
    requires forall k :: 0 <= k < |s| ==> !p(s[k])
    ensures Filter(p, s) == []
  {
    if |s| > 0 {
      FilterNoneEmpty(p, s[1..]);
    }
  }

  /** The elements ranked strictly above `x` by `key`. */
  function StrictlyAbove<T>(key: T -> real, x: T): T -> bool {
    (y: T) => key(y) > key(x)
  }

  /**
   * An element in the first `m` places of a descending sort has fewer than `m`
   * elements of the input ranked strictly above it.
   */
  lemma TopPrefixRank<T>(s: seq<T>, key: T -> real, m: nat, x: T)
    requires x in SortDesc(s, key)[..Min(m, |s|)]
    ensures |Filter(StrictlyAbove(key, x), s)| < m
  {
    var r := SortDesc(s, key);
    var p :| 0 <= p < Min(m, |s|) && r[..Min(m, |s|)][p] == x;
    SortedAboveCount(r, key, x, p);
    FilterCountPermutation(StrictlyAbove(key, x), s, r);
  }

  /** In a descending list, only the places before `x`'s can rank above it. */
  lemma SortedAboveCount<T>(r: seq<T>, key: T -> real, x: T, p: nat)
    requires NonIncreasing(r, key)
    requires p < |r| && r[p] == x
    ensures |Filter(StrictlyAbove(key, x), r)| <= p
  {
    var above := StrictlyAbove(key, x);
    var head, tail := r[..p], r[p..];
    assert r == head + tail;
    forall q | 0 <= q < |tail| ensures !above(tail[q]) {
      assert tail[q] == r[p + q];
    }
    FilterAppend(above, head, tail);
    FilterNoneEmpty(above, tail);
  }

  // ---------------------------------------------------------------------
  // Python string order
  // ---------------------------------------------------------------------

  /** `a < b` on Python strings: code point by code point, a proper prefix first. */
  predicate StrLess(a: string, b: string) {
    if |b| == 0 then false
    else if |a| == 0 then true
    else if a[0] != b[0] then a[0] < b[0]
    else StrLess(a[1..], b[1..])
  }

  lemma {:induction false} StrLessIrreflexive(a: string)
    ensures !StrLess(a, a)
  {
    if |a| > 0 {
      StrLessIrreflexive(a[1..]);
    }
  }

  lemma {:induction false} StrLessTransitive(a: string, b: string, c: string)
    requires StrLess(a, b) && StrLess(b, c)
    ensures StrLess(a, c)
  {
    if |a| > 0 && a[0] == b[0] && b[0] == c[0] {
      StrLessTransitive(a[1..], b[1..], c[1..]);
    }
  }

  lemma {:induction false} StrLessTotal(a: string, b: string)
    requires a != b
    ensures StrLess(a, b) || StrLess(b, a)
  {
    if |a| > 0 && |b| > 0 && a[0] == b[0] {
      assert a == [a[0]] + a[1..] && b == [b[0]] + b[1..];
      StrLessTotal(a[1..], b[1..]);
    }
  }

  predicate StrictlySorted(s: seq<string>) {
    forall i, j :: 0 <= i < j < |s| ==> StrLess(s[i], s[j])
  }

  lemma StrictlySortedNoDup(s: seq<string>)
    requires StrictlySorted(s)
    ensures NoDup(s)
  {
    forall i, j | 0 <= i < j < |s| ensures s[i] != s[j] {
      if s[i] == s[j] {
        StrLessIrreflexive(s[i]);
      }
    }
  }

  function InsertUnique(x: string, s: seq<string>): (r: seq<string>)
    requires StrictlySorted(s)
    ensures StrictlySorted(r)
    ensures forall y :: y in r <==> y == x || y in s
  {
    if |s| == 0 then [x]
    else if x == s[0] then s
    else if StrLess(x, s[0]) then
      assert forall k :: 0 <= k < |s| ==> StrLess(x, s[k]) by {
        forall k | 0 < k < |s| ensures StrLess(x, s[k]) {
          StrLessTransitive(x, s[0], s[k]);
        }
      }
      [x] + s
    else
      StrLessTotal(x, s[0]);
      var tail := InsertUnique(x, s[1..]);
      assert forall k :: 0 <= k < |tail| ==> StrLess(s[0], tail[k]) by {
        forall k | 0 <= k < |tail| ensures StrLess(s[0], tail[k]) {
          assert tail[k] in tail;
          if tail[k] != x {
            var m :| 0 <= m < |s[1..]| && s[1..][m] == tail[k];
            assert s[m + 1] == tail[k];
          }
        }
      }
      assert s == [s[0]] + s[1..];
      [s[0]] + tail
  }

  /** Python `sorted(set(xs))` on strings. */
  function SortedSet(xs: seq<string>): (r: seq<string>)
    ensures StrictlySorted(r)
    ensures NoDup(r)
    ensures forall y :: y in r <==> y in xs
  {
    if |xs| == 0 then []
    else
      var r := InsertUnique(xs[0], SortedSet(xs[1..]));
      assert xs == [xs[0]] + xs[1..];
      StrictlySortedNoDup(r);
      r
  }

  /**
   * There is only one strictly increasing list of a given set of strings, so
   * `SortedSet` is determined by its contract.
   */
  lemma {:induction false} StrictlySortedUnique(a: seq<string>, b: seq<string>)
    requires StrictlySorted(a) && StrictlySorted(b)
    requires forall y :: y in a <==> y in b
    ensures a == b
  {
    assert |a| > 0 ==> a[0] in b;
    assert |b| > 0 ==> b[0] in a;
    if |a| > 0 && |b| > 0 {
      assert a[0] in a && b[0] in b;
      var i :| 0 <= i < |b| && b[i] == a[0];
      var j :| 0 <= j < |a| && a[j] == b[0];
      if i > 0 && j > 0 {
        assert StrLess(b[0], b[i]) && StrLess(a[0], a[j]);
        StrLessTransitive(a[0], b[0], a[0]);
        StrLessIrreflexive(a[0]);
      }
      assert a[0] == b[0];
      StrictlySortedNoDup(a);
      StrictlySortedNoDup(b);
      forall y ensures y in a[1..] <==> y in b[1..] {
        if y in a[1..] {
          var k :| 0 <= k < |a[1..]| && a[1..][k] == y;
          assert a[k + 1] == y && y != a[0] && y in a;
          var m :| 0 <= m < |b| && b[m] == y;
          assert m != 0;
          assert b[1..][m - 1] == y;
        }
        if y in b[1..] {
          var k :| 0 <= k < |b[1..]| && b[1..][k] == y;
          assert b[k + 1] == y && y != b[0] && y in b;
          var m :| 0 <= m < |a| && a[m] == y;
          assert m != 0;
          assert a[1..][m - 1] == y;
        }
      }
      StrictlySortedUnique(a[1..], b[1..]);
      assert a == [a[0]] + a[1..] && b == [b[0]] + b[1..];
    }
  }
}

=== FILE: ranking.dfy ===
/**
 * Symbol selection from a ticker snapshot: the top-N by quote volume used by
 * every scanner, and the top-movers pipeline of the combined bot.
 */
module Ranking {
  import opened Wrappers
  import opened Seqs
  import opened Ordering
  import opened Market

  // ---------------------------------------------------------------------
  // Top-N by quote volume
  // ---------------------------------------------------------------------

  /**
   * One entry of `fetch_tickers()`, in dict iteration order. `quoteVolume`
   * is None when the ticker or its field is missing.
   */
  datatype Ticker = Ticker(symbol: string, quoteVolume: Option<real>)

  /** A dict has distinct keys. */
  predicate DistinctSymbols(ts: seq<Ticker>) {
    NoDupBy(ts, (t: Ticker) => t.symbol)
  }

  /** `s.endswith("/USDT:USDT") and t and t.get("quoteVolume")`: a zero volume is falsy. */
  predicate Eligible(t: Ticker) {
    EndsWith(t.symbol, QuoteSuffix) && t.quoteVolume.Some? && t.quoteVolume.value != 0.0
  }

  datatype Candidate = Candidate(symbol: string, volume: real)

  function ToCandidate(t: Ticker): Candidate
    requires t.quoteVolume.Some?
  {
    Candidate(t.symbol, t.quoteVolume.value)
  }

  function Volume(c: Candidate): real {
    c.volume
  }

  function Symbol(c: Candidate): string {
    c.symbol
  }

  /** The `(s, quoteVolume)` pairs collected before sorting, in dict order. */
  function Candidates(ts: seq<Ticker>): (r: seq<Candidate>)
    ensures |r| == |Filter(Eligible, ts)|
  {
    if |ts| == 0 then []
    else if Eligible(ts[0]) then [ToCandidate(ts[0])] + Candidates(ts[1..])
    else Candidates(ts[1..])
  }

  /** The volume of the ticker named `sym`, if that ticker passes the filter. */
  function EligibleVolume(ts: seq<Ticker>, sym: string): (r: Option<real>)
    ensures r.Some? ==> EndsWith(sym, QuoteSuffix) && r.value != 0.0
  {
    if |ts| == 0 then None
    else if ts[0].symbol == sym then
      (if Eligible(ts[0]) then Some(ts[0].quoteVolume.value) else None)
    else EligibleVolume(ts[1..], sym)
  }

  lemma {:induction false} CandidatesExact(ts: seq<Ticker>, c: Candidate)
    requires DistinctSymbols(ts)
    ensures c in Candidates(ts) <==> EligibleVolume(ts, c.symbol) == Some(c.volume)
  {
    if |ts| > 0 {
      assert DistinctSymbols(ts[1..]);
      CandidatesExact(ts[1..], c);
      if ts[0].symbol == c.symbol {
        assert EligibleVolume(ts[1..], c.symbol) == None by {
          NotListedNoVolume(ts[1..], c.symbol);
        }
      }
    }
  }

  lemma {:induction false} NotListedNoVolume(ts: seq<Ticker>, sym: string)
    requires forall k :: 0 <= k < |ts| ==> ts[k].symbol != sym
    ensures EligibleVolume(ts, sym) == None
  {
    if |ts| > 0 {
      NotListedNoVolume(ts[1..], sym);
    }
  }

  lemma {:induction false} CandidatesDistinct(ts: seq<Ticker>)
    requires DistinctSymbols(ts)
    ensures NoDupBy(Candidates(ts), Symbol)
  {
    if |ts| > 0 {
      assert DistinctSymbols(ts[1..]);
      CandidatesDistinct(ts[1..]);
      var rest := Candidates(ts[1..]);
      forall k | 0 <= k < |rest| ensures rest[k].symbol != ts[0].symbol {
        assert rest[k] in rest;
        CandidatesExact(ts[1..], rest[k]);
        if rest[k].symbol == ts[0].symbol {
          NotListedNoVolume(ts[1..], ts[0].symbol);
        }
      }
    }
  }

  function Ranked(ts: seq<Ticker>): seq<Candidate> {
    SortDesc(Candidates(ts), Volume)
  }

  function TopCandidates(ts: seq<Ticker>, n: nat): seq<Candidate> {
    Ranked(ts)[..Min(n, |Candidates(ts)|)]
  }

  /**
   * `get_top_volume_symbols(n)` after `fetch_tickers()` returned `ts`: the
   * eligible symbols sorted by quote volume, highest first, cut to `n`.
   */
  function TopVolumeSymbols(ts: seq<Ticker>, n: nat): (r: seq<string>)
    requires DistinctSymbols(ts)
    ensures |r| == Min(n, |Filter(Eligible, ts)|)
    ensures forall k :: 0 <= k < |r| ==> EligibleVolume(ts, r[k]).Some?
    ensures NoDup(r)
    ensures forall i, j :: 0 <= i < j < |r| ==> EligibleVolume(ts, r[i]).value >= EligibleVolume(ts, r[j]).value
    ensures forall j :: 0 <= j < |ts| && Eligible(ts[j]) && ts[j].symbol !in r ==>
              forall k :: 0 <= k < |r| ==> EligibleVolume(ts, r[k]).value >= ts[j].quoteVolume.value
  {
    var top := TopCandidates(ts, n);
    var r := Map(Symbol, top);
    forall k | 0 <= k < |r| ensures EligibleVolume(ts, r[k]) == Some(top[k].volume) {
      TopEntryVolume(ts, n, k);
    }
    TopDistinct(ts, n);
    forall j | 0 <= j < |ts| && Eligible(ts[j]) && ts[j].symbol !in r
      ensures forall k :: 0 <= k < |r| ==> top[k].volume >= ts[j].quoteVolume.value
    {
      TopComplete(ts, n, j);
    }
    r
  }

  lemma TopEntryVolume(ts: seq<Ticker>, n: nat, k: nat)
    requires DistinctSymbols(ts)
    requires k < |TopCandidates(ts, n)|
    ensures EligibleVolume(ts, TopCandidates(ts, n)[k].symbol) == Some(TopCandidates(ts, n)[k].volume)
  {
    var ranked := Ranked(ts);
    assert TopCandidates(ts, n)[k] == ranked[k];
    MultisetMembership(Candidates(ts), ranked, ranked[k]);
    CandidatesExact(ts, ranked[k]);
  }

  lemma TopDistinct(ts: seq<Ticker>, n: nat)
    requires DistinctSymbols(ts)
    ensures NoDup(Map(Symbol, TopCandidates(ts, n)))
  {
    CandidatesDistinct(ts);
    SortKeepsDistinct(Candidates(ts), Volume, Symbol);
    var top := TopCandidates(ts, n);
    assert forall i :: 0 <= i < |top| ==> top[i] == Ranked(ts)[i];
  }

  lemma TopComplete(ts: seq<Ticker>, n: nat, j: nat)
    requires DistinctSymbols(ts)
    requires j < |ts| && Eligible(ts[j]) && ts[j].symbol !in Map(Symbol, TopCandidates(ts, n))
    ensures forall k :: 0 <= k < |TopCandidates(ts, n)| ==> TopCandidates(ts, n)[k].volume >= ts[j].quoteVolume.value
  {
    var top := TopCandidates(ts, n);
    var c := ToCandidate(ts[j]);
    ListedVolume(ts, j);
    CandidatesExact(ts, c);
    assert c !in top by {
      forall k | 0 <= k < |top| ensures top[k] != c {
        assert Map(Symbol, top)[k] == top[k].symbol;
      }
    }
    TopPrefixDominates(Candidates(ts), Volume, n, c);
  }

  lemma {:induction false} ListedVolume(ts: seq<Ticker>, j: nat)
    requires DistinctSymbols(ts)
    requires j < |ts| && Eligible(ts[j])
    ensures EligibleVolume(ts, ts[j].symbol) == Some(ts[j].quoteVolume.value)
  {
    if j > 0 {
      assert DistinctSymbols(ts[1..]);
      assert ts[1..][j - 1] == ts[j];
      ListedVolume(ts[1..], j - 1);
    }
  }

  /**
   * pencaripercobaan's variant: a `fetch_tickers()` that raised (None here)
   * yields no symbols instead of propagating.
   */
  function TopVolumeOrEmpty(fetched: Option<seq<Ticker>>, n: nat): (r: seq<string>)
    requires fetched.Some? ==> DistinctSymbols(fetched.value)
    ensures fetched.None? ==> r == []
    ensures fetched.Some? ==> r == TopVolumeSymbols(fetched.value, n)
  {
    match fetched
    case None => []
    case Some(ts) => TopVolumeSymbols(ts, n)
  }

  // ---------------------------------------------------------------------
  // Top movers (bot/scanner.py)
  // ---------------------------------------------------------------------

  const MinMovePct: real := 3.0
  const MoversTopN: nat := 10
  const MoversVolumePool: nat := 30

  /** A ticker's `percentage` and `quoteVolume` fields, either possibly missing. */
  datatype MoverTicker = MoverTicker(symbol: string, percentage: Option<real>, quoteVolume: Option<real>)

  datatype Mover = Mover(symbol: string, change: real, volume: real)

  /** `pct and abs(pct) >= MIN_MOVE_PCT`. */
  predicate Moved(t: MoverTicker) {
    t.percentage.Some? && t.percentage.value != 0.0 &&
    (t.percentage.value >= MinMovePct || t.percentage.value <= -MinMovePct)
  }

  /** The row appended for a kept ticker; `t.get("quoteVolume") or 0`. */
  function ToMover(t: MoverTicker): (m: Mover)
    requires t.percentage.Some?
    ensures m.volume == if t.quoteVolume.Some? then t.quoteVolume.value else 0.0
  {
    Mover(t.symbol, t.percentage.value, t.quoteVolume.GetOr(0.0))
  }

  function Kept(ts: seq<MoverTicker>): (r: seq<Mover>)
    ensures |r| == |Filter(Moved, ts)|
    ensures forall k :: 0 <= k < |r| ==> r[k].change >= MinMovePct || r[k].change <= -MinMovePct
  {
    if |ts| == 0 then []
    else if Moved(ts[0]) then [ToMover(ts[0])] + Kept(ts[1..])
    else Kept(ts[1..])
  }

  /** A row is kept exactly when it is the row of some ticker that moved enough. */
  lemma {:induction false} KeptMembers(ts: seq<MoverTicker>, m: Mover)
    ensures m in Kept(ts) <==> exists k :: 0 <= k < |ts| && Moved(ts[k]) && m == ToMover(ts[k])
  {
    if |ts| > 0 {
      KeptMembers(ts[1..], m);
      if exists k :: 0 <= k < |ts[1..]| && Moved(ts[1..][k]) && m == ToMover(ts[1..][k]) {
        var k :| 0 <= k < |ts[1..]| && Moved(ts[1..][k]) && m == ToMover(ts[1..][k]);
        assert ts[k + 1] == ts[1..][k];
      }
      if exists k :: 0 <= k < |ts| && Moved(ts[k]) && m == ToMover(ts[k]) {
        var k :| 0 <= k < |ts| && Moved(ts[k]) && m == ToMover(ts[k]);
        if k > 0 {
          assert ts[1..][k - 1] == ts[k];
        }
      }
    }
  }

  function MoverVolume(m: Mover): real {
    m.volume
  }

  function MoverChange(m: Mover): real {
    m.change
  }

  /** `.sort_values("volume", ascending=False).head(30)` over the kept rows. */
  function VolumeLeaders(ts: seq<MoverTicker>): (r: seq<Mover>)
  {
    var kept := Kept(ts);
    SortDesc(kept, MoverVolume)[..Min(MoversVolumePool, |kept|)]
  }

  /**
   * `get_top_movers()`: the kept rows, cut to the 30 highest volumes, re-sorted
   * by change (highest first) and cut to TOP_N.
   */
  function TopMovers(ts: seq<MoverTicker>): (r: seq<Mover>)
    ensures |r| == Min(MoversTopN, Min(MoversVolumePool, |Filter(Moved, ts)|))
    ensures |Filter(Moved, ts)| == 0 ==> r == []
    ensures NonIncreasing(r, MoverChange)
    ensures forall k :: 0 <= k < |r| ==> r[k] in Kept(ts)
    ensures forall k :: 0 <= k < |r| ==>
              |Filter(StrictlyAbove(MoverVolume, r[k]), Kept(ts))| < MoversVolumePool
    ensures forall j, k :: 0 <= j < |VolumeLeaders(ts)| && VolumeLeaders(ts)[j] !in r && 0 <= k < |r| ==>
              r[k].change >= VolumeLeaders(ts)[j].change
  {
    var kept := Kept(ts);
    if |kept| == 0 then []
    else
      var leaders := VolumeLeaders(ts);
      var r := SortDesc(leaders, MoverChange)[..Min(MoversTopN, |leaders|)];
      TopMoversFacts(ts, kept, leaders, r);
      r
  }

  lemma TopMoversFacts(ts: seq<MoverTicker>, kept: seq<Mover>, leaders: seq<Mover>, r: seq<Mover>)
    requires kept == Kept(ts) && leaders == VolumeLeaders(ts)
    requires r == SortDesc(leaders, MoverChange)[..Min(MoversTopN, |leaders|)]
    ensures |r| == Min(MoversTopN, Min(MoversVolumePool, |kept|))
    ensures NonIncreasing(r, MoverChange)
    ensures forall k :: 0 <= k < |r| ==> r[k] in kept
    ensures forall k :: 0 <= k < |r| ==>
              |Filter(StrictlyAbove(MoverVolume, r[k]), kept)| < MoversVolumePool
    ensures forall j, k :: 0 <= j < |leaders| && leaders[j] !in r && 0 <= k < |r| ==>
              r[k].change >= leaders[j].change
  {
    PrefixNonIncreasing(SortDesc(leaders, MoverChange), MoverChange, Min(MoversTopN, |leaders|));
    forall k | 0 <= k < |r|
      ensures r[k] in kept
      ensures |Filter(StrictlyAbove(MoverVolume, r[k]), kept)| < MoversVolumePool
    {
      MoverIsLeader(ts, kept, leaders, r, k);
    }
    forall j | 0 <= j < |leaders| && leaders[j] !in r
      ensures forall k :: 0 <= k < |r| ==> r[k].change >= leaders[j].change
    {
      TopPrefixDominates(leaders, MoverChange, MoversTopN, leaders[j]);
    }
  }

  lemma MoverIsLeader(ts: seq<MoverTicker>, kept: seq<Mover>, leaders: seq<Mover>, r: seq<Mover>, k: nat)
    requires kept == Kept(ts) && leaders == VolumeLeaders(ts)
    requires r == SortDesc(leaders, MoverChange)[..Min(MoversTopN, |leaders|)]
    requires k < |r|
    ensures r[k] in kept
    ensures |Filter(StrictlyAbove(MoverVolume, r[k]), kept)| < MoversVolumePool
  {
    var x := r[k];
    InLeaders(leaders, r, k);
    var byVol := SortDesc(kept, MoverVolume);
    assert leaders == byVol[..Min(MoversVolumePool, |kept|)];
    assert x in byVol;
    MultisetMembership(kept, byVol, x);
    TopPrefixRank(kept, MoverVolume, MoversVolumePool, x);
  }

  lemma InLeaders(leaders: seq<Mover>, r: seq<Mover>, k: nat)
    requires r == SortDesc(leaders, MoverChange)[..Min(MoversTopN, |leaders|)]
    requires k < |r|
    ensures r[k] in leaders
  {
    var byChange := SortDesc(leaders, MoverChange);
    assert r[k] == byChange[k];
    MultisetMembership(leaders, byChange, r[k]);
  }
}

=== FILE: retry.dfy ===
/**
 * `safe_fetch`: at most three attempts at a remote call, a backoff pause after
 * each failed attempt, the first returned value wins, and `None` once all
 * three attempts have raised. No error ever reaches the caller.
 */
module Retry {
  import opened Wrappers

  const MaxAttempts: nat := 3

  /** What one call of `fetch_ohlcv` did: raised an exception or returned a value. */
  datatype Attempt<T> = Raised | Returned(value: T)

  /** The value handed back, the calls made and the `asyncio.sleep(2)` backoffs taken. */
  datatype FetchRun<T> = FetchRun(result: Option<T>, attempts: nat, backoffs: nat)

  /** Index of the first returning attempt among the first `MaxAttempts`, if any. */
  function FirstReturned<T>(script: seq<Attempt<T>>, from: nat): (r: Option<nat>)
    requires |script| >= MaxAttempts && from <= MaxAttempts
    ensures r.Some? ==> from <= r.value < MaxAttempts && script[r.value].Returned?
    ensures r.Some? ==> forall k :: from <= k < r.value ==> script[k].Raised?
    ensures r.None? ==> forall k :: from <= k < MaxAttempts ==> script[k].Raised?
    decreases MaxAttempts - from
  {
    if from == MaxAttempts then None
    else if script[from].Returned? then Some(from)
    else FirstReturned(script, from + 1)
  }

  /**
   * The loop `for i in range(3): try: return fetch() except: sleep(2)` run
   * from attempt `i`, where `script[k]` is what attempt `k` does.
   */
  function TryFrom<T>(script: seq<Attempt<T>>, i: nat): (r: FetchRun<T>)
    requires |script| >= MaxAttempts && i <= MaxAttempts
    ensures i < r.attempts <= MaxAttempts || (i == MaxAttempts && r.attempts == i)
    ensures forall k :: i <= k < r.attempts - 1 ==> script[k].Raised?
    ensures r.result.Some? ==> r.attempts > i && script[r.attempts - 1] == Returned(r.result.value)
    ensures r.result.None? ==> r.attempts == MaxAttempts && forall k :: i <= k < MaxAttempts ==> script[k].Raised?
    ensures r.backoffs == r.attempts - i - (if r.result.Some? then 1 else 0)
    decreases MaxAttempts - i
  {
    if i == MaxAttempts then FetchRun(None, i, 0)
    else match script[i]
      case Returned(v) => FetchRun(Some(v), i + 1, 0)
      case Raised =>
        var rest := TryFrom(script, i + 1);
        FetchRun(rest.result, rest.attempts, rest.backoffs + 1)
  }

  /** `safe_fetch(symbol)`; the script must answer each of the three possible calls. */
  function SafeFetch<T>(script: seq<Attempt<T>>): (r: FetchRun<T>)
    requires |script| >= MaxAttempts
    ensures 1 <= r.attempts <= MaxAttempts
    ensures r.result.None? <==> FirstReturned(script, 0).None?
    ensures r.result.Some? ==> r.attempts == FirstReturned(script, 0).value + 1
    ensures r.result.Some? ==> r.result.value == script[r.attempts - 1].value
    ensures r.backoffs == if r.result.Some? then r.attempts - 1 else MaxAttempts
  {
    TryFromFindsFirst(script, 0);
    TryFrom(script, 0)
  }

  lemma {:induction false} TryFromFindsFirst<T>(script: seq<Attempt<T>>, i: nat)
    requires |script| >= MaxAttempts && i <= MaxAttempts
    ensures TryFrom(script, i).result.None? <==> FirstReturned(script, i).None?
    ensures TryFrom(script, i).result.Some? ==> TryFrom(script, i).attempts == FirstReturned(script, i).value + 1
    decreases MaxAttempts - i
  {
    if i < MaxAttempts && script[i].Raised? {
      TryFromFindsFirst(script, i + 1);
    }
  }

  /** Two failures and then a success: the third attempt's value, after two backoffs. */
  lemma FailTwiceThenSucceed<T>(v: T)
    ensures SafeFetch([Raised, Raised, Returned(v)]) == FetchRun(Some(v), 3, 2)
  {
  }
}

=== FILE: seqs.dfy ===
/** Sequence helpers: Python slicing, extrema, sums, flattening and uniqueness. */
module Seqs {

  /** No element occurs twice. */
  predicate NoDup<T(==)>(s: seq<T>) {
    forall i, j :: 0 <= i < j < |s| ==> s[i] != s[j]
  }

  /** No two elements share the same identity `id`. */
  predicate NoDupBy<T, U(==)>(s: seq<T>, id: T -> U) {
    forall i, j :: 0 <= i < j < |s| ==> id(s[i]) != id(s[j])
  }

  function Map<T, U>(f: T -> U, s: seq<T>): (r: seq<U>)
    ensures |r| == |s|
    ensures forall i :: 0 <= i < |s| ==> r[i] == f(s[i])
  {
    if |s| == 0 then [] else [f(s[0])] + Map(f, s[1..])
  }

  /** Elements satisfying `p`, in their original order. */
  function Filter<T>(p: T -> bool, s: seq<T>): (r: seq<T>)
    ensures |r| <= |s|
    ensures forall k :: 0 <= k < |r| ==> r[k] in s && p(r[k])
    ensures forall k :: 0 <= k < |s| && p(s[k]) ==> s[k] in r
  {
    if |s| == 0 then []
    else if p(s[0]) then [s[0]] + Filter(p, s[1..])
    else Filter(p, s[1..])
  }

  lemma FilterAppend<T>(p: T -> bool, a: seq<T>, b: seq<T>)
    ensures Filter(p, a + b) == Filter(p, a) + Filter(p, b)
  {
    if |a| > 0 {
      assert (a + b)[1..] == a[1..] + b;
      FilterAppend(p, a[1..], b);
    } else {
      assert a + b == b;
    }
  }

  /** Python's `s[i:j]` for non-negative bounds: both ends are clamped to the length. */
  function Slice<T>(s: seq<T>, i: nat, j: nat): (r: seq<T>)
    ensures |r| == if i < j && i < |s| then Min(j, |s|) - i else 0
  {
    var lo := Min(i, |s|);
    var hi := Min(j, |s|);
    if lo < hi then s[lo..hi] else []
  }

  /** Python's `s[-2:]`: the last two elements, or all of them when fewer. */
  function LastTwo<T>(s: seq<T>): (r: seq<T>)
    ensures |r| == Min(2, |s|)
    ensures forall k :: 0 <= k < |r| ==> r[k] == s[|s| - |r| + k]
  {
    if |s| <= 2 then s else s[|s| - 2..]
  }

  function Min(a: int, b: int): int {
    if a <= b then a else b
  }

  /** Concatenation of a list of lists, as `all += batch` does batch by batch. */
  function Flatten<T>(ss: seq<seq<T>>): (r: seq<T>)
  {
    if |ss| == 0 then [] else ss[0] + Flatten(ss[1..])
  }

  lemma FlattenAppend<T>(a: seq<seq<T>>, b: seq<seq<T>>)
    ensures Flatten(a + b) == Flatten(a) + Flatten(b)
  {
    if |a| > 0 {
      assert (a + b)[1..] == a[1..] + b;
      FlattenAppend(a[1..], b);
    } else {
      assert a + b == b;
    }
  }

  /** Smallest element; pandas `.min()` of a non-empty column. */
  function SeqMin(s: seq<real>): (m: real)
    requires |s| > 0
    ensures m in s
    ensures forall k :: 0 <= k < |s| ==> m <= s[k]
  {
    if |s| == 1 then s[0]
    else
      var rest := SeqMin(s[..|s| - 1]);
      assert forall k :: 0 <= k < |s| - 1 ==> s[..|s| - 1][k] == s[k];
      if s[|s| - 1] < rest then s[|s| - 1] else rest
  }

  /** Largest element; pandas `.max()` of a non-empty column. */
  function SeqMax(s: seq<real>): (m: real)
    requires |s| > 0
    ensures m in s
    ensures forall k :: 0 <= k < |s| ==> s[k] <= m
  {
    if |s| == 1 then s[0]
    else
      var rest := SeqMax(s[..|s| - 1]);
      assert forall k :: 0 <= k < |s| - 1 ==> s[..|s| - 1][k] == s[k];
      if s[|s| - 1] > rest then s[|s| - 1] else rest
  }

  function Sum(s: seq<real>): real {
    if |s| == 0 then 0.0 else Sum(s[..|s| - 1]) + s[|s| - 1]
  }

  /** A sum of terms that all lie in [lo, hi] lies in [|s|·lo, |s|·hi]. */
  lemma {:induction false} SumBounds(s: seq<real>, lo: real, hi: real)
    requires forall k :: 0 <= k < |s| ==> lo <= s[k] <= hi
    ensures |s| as real * lo <= Sum(s) <= |s| as real * hi
  {
    if |s| > 0 {
      var p := s[..|s| - 1];
      assert forall k :: 0 <= k < |p| ==> p[k] == s[k];
      SumBounds(p, lo, hi);
    }
  }

  /** `[f(x) for x in s if p(x)]`: the image of every element passing `p`, in order. */
  function Select<T, U>(p: T -> bool, f: T -> U, s: seq<T>): (r: seq<U>)
    ensures |r| <= |s|
  {
    if |s| == 0 then [] else (if p(s[0]) then [f(s[0])] else []) + Select(p, f, s[1..])
  }

  /** Some element of `s` passes `p` and has image `y`. */
  predicate Selected<T, U(==)>(p: T -> bool, f: T -> U, s: seq<T>, y: U) {
    exists j :: 0 <= j < |s| && p(s[j]) && y == f(s[j])
  }

  /** The selection holds exactly the images of the passing elements. */
  lemma {:induction false} SelectMembers<T, U>(p: T -> bool, f: T -> U, s: seq<T>, y: U)
    ensures y in Select(p, f, s) <==> Selected(p, f, s, y)
  {
    if |s| > 0 {
      SelectMembers(p, f, s[1..], y);
      if Selected(p, f, s[1..], y) {
        var j :| 0 <= j < |s[1..]| && p(s[1..][j]) && y == f(s[1..][j]);
        assert s[j + 1] == s[1..][j];
      }
      if Selected(p, f, s, y) {
        var j :| 0 <= j < |s| && p(s[j]) && y == f(s[j]);
        if j > 0 {
          assert s[1..][j - 1] == s[j];
        }
      }
    }
  }

  lemma {:induction false} SelectAppend<T, U>(p: T -> bool, f: T -> U, a: seq<T>, b: seq<T>)
    ensures Select(p, f, a + b) == Select(p, f, a) + Select(p, f, b)
  {
    if |a| == 0 {
      assert a + b == b;
    } else {
      var head := if p(a[0]) then [f(a[0])] else [];
      assert (a + b)[0] == a[0];
      assert (a + b)[1..] == a[1..] + b;
      assert Select(p, f, a + b) == head + Select(p, f, a[1..] + b);
      assert Select(p, f, a) == head + Select(p, f, a[1..]);
      SelectAppend(p, f, a[1..], b);
      assert head + (Select(p, f, a[1..]) + Select(p, f, b)) == (head + Select(p, f, a[1..])) + Select(p, f, b);
    }
  }
}

=== FILE: stochastic.dfy ===
/**
 * stoch.py: the stochastic oscillator (%K_raw, %K, %D) over rolling windows,
 * the overbought/oversold decisions on the closed candle, and the scan over
 * every (symbol, timeframe) pair. pandas NaN is `None`.
 */
module Stochastic {
  import opened Wrappers
  import opened Seqs
  import opened Market

  const KPeriod: nat := 5
  const DPeriod: nat := 3
  const SmoothPeriod: nat := 3
  const OverboughtLevel: real := 83.0
  const OversoldLevel: real := 10.0
  const MinRows: nat := 20

  // ---------------------------------------------------------------------
  // Indicator columns
  // ---------------------------------------------------------------------

  /**
   * `100 * (close - low.rolling(k).min()) / (high.rolling(k).max() - low.rolling(k).min())`
   * on one full window ending at the row being computed; undefined on a flat window.
   */
  function RawOnWindow(w: seq<Candle>): (r: Option<real>)
    requires |w| >= 1
    ensures r.Some? && AllWellFormed(w) ==> 0.0 <= r.value <= 100.0
  {
    var lo, hi := SeqMin(Lows(w)), SeqMax(Highs(w));
    if hi - lo == 0.0 then None
    else
      assert AllWellFormed(w) ==> lo <= w[|w| - 1].close <= hi by {
        assert Lows(w)[|w| - 1] == w[|w| - 1].low;
        assert Highs(w)[|w| - 1] == w[|w| - 1].high;
      }
      PercentOf(w[|w| - 1].close - lo, hi - lo);
      Some(100.0 * (w[|w| - 1].close - lo) / (hi - lo))
  }

  lemma PercentOf(num: real, den: real)
    requires den != 0.0
    ensures 0.0 <= num <= den ==> 0.0 <= 100.0 * num / den <= 100.0
  {
    if 0.0 <= num <= den {
      assert 100.0 * num / den * den == 100.0 * num;
    }
  }

  /** %K_raw at row `i`: undefined before the first full window of `k` rows. */
  function KRawAt(cs: seq<Candle>, k: nat, i: nat): (r: Option<real>)
    requires k >= 1 && i < |cs|
    ensures r.Some? ==> i + 1 >= k
    ensures r.Some? && AllWellFormed(cs) ==> 0.0 <= r.value <= 100.0
  {
    if i + 1 < k then None
    else
      var w := cs[i + 1 - k..i + 1];
      assert AllWellFormed(cs) ==> AllWellFormed(w);
      RawOnWindow(w)
  }

  function KRaw(cs: seq<Candle>, k: nat): (r: seq<Option<real>>)
    requires k >= 1
    ensures |r| == |cs| && forall i :: 0 <= i < |cs| ==> r[i] == KRawAt(cs, k, i)
  {
    seq(|cs|, i requires 0 <= i < |cs| => KRawAt(cs, k, i))
  }

  predicate AllDefined(xs: seq<Option<real>>) {
    forall j :: 0 <= j < |xs| ==> xs[j].Some?
  }

  function Values(xs: seq<Option<real>>): (r: seq<real>)
    requires AllDefined(xs)
    ensures |r| == |xs| && forall j :: 0 <= j < |xs| ==> r[j] == xs[j].value
  {
    seq(|xs|, j requires 0 <= j < |xs| => xs[j].value)
  }

  /**
   * `xs.rolling(w).mean()` at row `i`: the mean of the `w` values ending at
   * `i`, undefined before the first full window or when any of them is.
   */
  function RollingMeanAt(xs: seq<Option<real>>, w: nat, i: nat): (r: Option<real>)
    requires w >= 1 && i < |xs|
    ensures r.Some? <==> i + 1 >= w && AllDefined(xs[i + 1 - w..i + 1])
  {
    if i + 1 < w then None
    else
      var win := xs[i + 1 - w..i + 1];
      if AllDefined(win) then Some(Sum(Values(win)) / w as real) else None
  }

  function RollingMean(xs: seq<Option<real>>, w: nat): (r: seq<Option<real>>)
    requires w >= 1
    ensures |r| == |xs| && forall i :: 0 <= i < |xs| ==> r[i] == RollingMeanAt(xs, w, i)
  {
    seq(|xs|, i requires 0 <= i < |xs| => RollingMeanAt(xs, w, i))
  }

  /** Every defined entry lies in [0, 100]. */
  predicate Percent(xs: seq<Option<real>>) {
    forall j :: 0 <= j < |xs| && xs[j].Some? ==> 0.0 <= xs[j].value <= 100.0
  }

  /** A rolling mean of percentages is a percentage wherever it is defined. */
  lemma RollingMeanPercent(xs: seq<Option<real>>, w: nat)
    requires w >= 1 && Percent(xs)
    ensures Percent(RollingMean(xs, w))
  {
    var r := RollingMean(xs, w);
    forall i | 0 <= i < |r| && r[i].Some? ensures 0.0 <= r[i].value <= 100.0 {
      var vs := Values(xs[i + 1 - w..i + 1]);
      SumBounds(vs, 0.0, 100.0);
      var total, n := Sum(vs), w as real;
      assert 0.0 <= total <= n * 100.0;
      assert total / n * n == total;
    }
  }

  /** The %K column: `%K_raw.rolling(smooth).mean()`. */
  function KLine(cs: seq<Candle>, k: nat, smooth: nat): seq<Option<real>>
    requires k >= 1 && smooth >= 1
  {
    RollingMean(KRaw(cs, k), smooth)
  }

  /** The %D column: `%K.rolling(d).mean()`. */
  function DLine(cs: seq<Candle>, k: nat, smooth: nat, d: nat): seq<Option<real>>
    requires k >= 1 && smooth >= 1 && d >= 1
  {
    RollingMean(KLine(cs, k, smooth), d)
  }

  /** For candles with open and close inside [low, high], every defined %K_raw, %K and %D is in [0, 100]. */
  lemma StochasticInRange(cs: seq<Candle>, k: nat, smooth: nat, d: nat)
    requires k >= 1 && smooth >= 1 && d >= 1
    requires AllWellFormed(cs)
    ensures Percent(KRaw(cs, k))
    ensures Percent(KLine(cs, k, smooth))
    ensures Percent(DLine(cs, k, smooth, d))
  {
    RollingMeanPercent(KRaw(cs, k), smooth);
    RollingMeanPercent(KLine(cs, k, smooth), d);
  }

  // ---------------------------------------------------------------------
  // Decisions on the closed candle
  // ---------------------------------------------------------------------

  /**
   * `stochastic_overbought` on the %K and %D columns of a frame of `|k|`
   * rows: K2, D2 (closed candle) and K3 (the one before) must be defined,
   * K2 and D2 above 83 and K2 below K3.
   */
  function OverboughtOn(k: seq<Option<real>>, d: seq<Option<real>>): (r: bool)
    requires |k| == |d|
    ensures r ==> |k| >= MinRows && k[|k| - 2].Some? && k[|k| - 3].Some?
    ensures r ==> d[|k| - 2].Some? && d[|k| - 2].value > OverboughtLevel
    ensures r ==> k[|k| - 2].value > OverboughtLevel && k[|k| - 2].value < k[|k| - 3].value
    ensures r ==> !OversoldOn(k, d)
  {
    |k| >= MinRows &&
    var k2, d2, k3 := k[|k| - 2], d[|k| - 2], k[|k| - 3];
    k2.Some? && d2.Some? && k3.Some? &&
    k2.value > OverboughtLevel && d2.value > OverboughtLevel && k2.value < k3.value
  }

  /** `stochastic_oversold`: the mirror guard, with K2 and D2 below 10 and K2 above K3. */
  function OversoldOn(k: seq<Option<real>>, d: seq<Option<real>>): (r: bool)
    requires |k| == |d|
    ensures r ==> |k| >= MinRows && k[|k| - 2].Some? && k[|k| - 3].Some?
    ensures r ==> d[|k| - 2].Some? && d[|k| - 2].value < OversoldLevel
    ensures r ==> k[|k| - 2].value < OversoldLevel && k[|k| - 2].value > k[|k| - 3].value
  {
    |k| >= MinRows &&
    var k2, d2, k3 := k[|k| - 2], d[|k| - 2], k[|k| - 3];
    k2.Some? && d2.Some? && k3.Some? &&
    k2.value < OversoldLevel && d2.value < OversoldLevel && k2.value > k3.value
  }

  function Overbought(cs: seq<Candle>): bool {
    OverboughtOn(KLine(cs, KPeriod, SmoothPeriod), DLine(cs, KPeriod, SmoothPeriod, DPeriod))
  }

  function Oversold(cs: seq<Candle>): bool {
    OversoldOn(KLine(cs, KPeriod, SmoothPeriod), DLine(cs, KPeriod, SmoothPeriod, DPeriod))
  }

  /**
   * %K running 90, 88, 70 with %D above 83: the signal fires when 88 is the
   * closed candle (88 < 90) and not once 70 has closed.
   */
  lemma MomentumTurnScenario()
    ensures var k := seq(17, _ => Some(50.0)) + [Some(90.0), Some(88.0), Some(70.0)];
      OverboughtOn(k, seq(20, _ => Some(85.0)))
    ensures var k := seq(17, _ => Some(50.0)) + [Some(90.0), Some(88.0), Some(70.0), Some(60.0)];
      !OverboughtOn(k, seq(21, _ => Some(85.0)))
  {
  }

  /** Fewer than 20 rows never signal. */
  lemma ShortFramesNeverSignal(cs: seq<Candle>)
    requires |cs| < MinRows
    ensures !Overbought(cs) && !Oversold(cs)
  {
  }

  // ---------------------------------------------------------------------
  // Causality: the forming candle does not matter
  // ---------------------------------------------------------------------

  /** Two frames that agree on their first `n` candles agree on their first `n` %K_raw values. */
  lemma KRawCausal(a: seq<Candle>, b: seq<Candle>, k: nat, n: nat)
    requires k >= 1 && n <= |a| && n <= |b| && a[..n] == b[..n]
    ensures forall j :: 0 <= j < n ==> KRaw(a, k)[j] == KRaw(b, k)[j]
  {
    forall j | 0 <= j < n ensures KRawAt(a, k, j) == KRawAt(b, k, j) {
      if j + 1 >= k {
        assert a[j + 1 - k..j + 1] == a[..n][j + 1 - k..j + 1];
        assert b[j + 1 - k..j + 1] == b[..n][j + 1 - k..j + 1];
      }
    }
  }

  /** A rolling mean at row `i` reads rows up to `i` only. */
  lemma RollingMeanCausal(xs: seq<Option<real>>, ys: seq<Option<real>>, w: nat, n: nat)
    requires w >= 1 && n <= |xs| && n <= |ys|
    requires forall j :: 0 <= j < n ==> xs[j] == ys[j]
    ensures forall j :: 0 <= j < n ==> RollingMean(xs, w)[j] == RollingMean(ys, w)[j]
  {
    forall j | 0 <= j < n ensures RollingMeanAt(xs, w, j) == RollingMeanAt(ys, w, j) {
      if j + 1 >= w {
        assert xs[j + 1 - w..j + 1] == ys[j + 1 - w..j + 1];
      }
    }
  }

  /** %K and %D at a row depend only on the candles up to that row. */
  lemma LinesCausal(a: seq<Candle>, b: seq<Candle>, n: nat)
    requires n <= |a| && n <= |b| && a[..n] == b[..n]
    ensures forall j :: 0 <= j < n ==> KLine(a, KPeriod, SmoothPeriod)[j] == KLine(b, KPeriod, SmoothPeriod)[j]
    ensures forall j :: 0 <= j < n ==> DLine(a, KPeriod, SmoothPeriod, DPeriod)[j] == DLine(b, KPeriod, SmoothPeriod, DPeriod)[j]
  {
    KRawCausal(a, b, KPeriod, n);
    RollingMeanCausal(KRaw(a, KPeriod), KRaw(b, KPeriod), SmoothPeriod, n);
    RollingMeanCausal(KLine(a, KPeriod, SmoothPeriod), KLine(b, KPeriod, SmoothPeriod), DPeriod, n);
  }

  /** The decisions read only %K at rows n-2 and n-3 and %D at row n-2. */
  lemma DecisionsReadClosedRows(k: seq<Option<real>>, d: seq<Option<real>>, k': seq<Option<real>>, d': seq<Option<real>>)
    requires |k| == |d| == |k'| == |d'|
    requires |k| >= MinRows ==> k[|k| - 2] == k'[|k| - 2] && k[|k| - 3] == k'[|k| - 3] && d[|k| - 2] == d'[|k| - 2]
    ensures OverboughtOn(k, d) == OverboughtOn(k', d')
    ensures OversoldOn(k, d) == OversoldOn(k', d')
  {
  }

  /**
   * Overbought/oversold read only completed candles: replacing the
   * still-forming last candle never changes either decision.
   */
  lemma FormingCandleIgnored(cs: seq<Candle>, c: Candle, c': Candle)
    ensures Overbought(cs + [c]) == Overbought(cs + [c'])
    ensures Oversold(cs + [c]) == Oversold(cs + [c'])
  {
    var a, b := cs + [c], cs + [c'];
    assert a[..|cs|] == b[..|cs|];
    LinesCausal(a, b, |cs|);
    var ka, kb := KLine(a, KPeriod, SmoothPeriod), KLine(b, KPeriod, SmoothPeriod);
    var da, db := DLine(a, KPeriod, SmoothPeriod, DPeriod), DLine(b, KPeriod, SmoothPeriod, DPeriod);
    DecisionsReadClosedRows(ka, da, kb, db);
  }

  // ---------------------------------------------------------------------
  // The scan over (symbol, timeframe) pairs
  // ---------------------------------------------------------------------

  /** `TIMEFRAMES`, in the order they are scanned. */
  const Timeframes: seq<Timeframe> := [M5, M15, H1, D1]

  datatype Extreme = OverboughtHit | OversoldHit

  predicate Signals(x: Extreme, cs: seq<Candle>) {
    match x
    case OverboughtHit => Overbought(cs)
    case OversoldHit => Oversold(cs)
  }

  /** The pair was fetched for `tf` (`fetch_df` did not raise) and its frame signals `x`. */
  function Flagged(tf: Timeframe, x: Extreme, fetch: (string, Timeframe) -> Option<seq<Candle>>): string -> bool {
    (s: string) => fetch(s, tf).Some? && Signals(x, fetch(s, tf).value)
  }

  /**
   * `results[x][tf]` after scanning `symbols`: the base asset of each symbol
   * whose frame for `tf` was fetched and signals `x`, in scan order. `fetch`
   * gives each pair's frame, None when `fetch_df` raised; the `try` around
   * each pair keeps that failure to the pair.
   */
  function Hits(symbols: seq<string>, tf: Timeframe, x: Extreme,
                fetch: (string, Timeframe) -> Option<seq<Candle>>): (r: seq<string>)
    ensures |r| <= |symbols|
  {
    Select(Flagged(tf, x, fetch), BaseAsset, symbols)
  }

  /** A base asset is reported exactly when one of its pairs was fetched and signals. */
  lemma HitsMembers(symbols: seq<string>, tf: Timeframe, x: Extreme,
                    fetch: (string, Timeframe) -> Option<seq<Candle>>, b: string)
    ensures b in Hits(symbols, tf, x, fetch) <==>
              exists j :: 0 <= j < |symbols| && fetch(symbols[j], tf).Some? &&
                Signals(x, fetch(symbols[j], tf).value) && b == BaseAsset(symbols[j])
  {
    SelectMembers(Flagged(tf, x, fetch), BaseAsset, symbols, b);
  }

  lemma HitsAppend(a: seq<string>, b: seq<string>, tf: Timeframe, x: Extreme,
                   fetch: (string, Timeframe) -> Option<seq<Candle>>)
    ensures Hits(a + b, tf, x, fetch) == Hits(a, tf, x, fetch) + Hits(b, tf, x, fetch)
  {
    SelectAppend(Flagged(tf, x, fetch), BaseAsset, a, b);
  }

  /** Scanning the batches one after the other: `results[x][tf].append(...)` across batches. */
  function HitsOverBatches(batches: seq<seq<string>>, tf: Timeframe, x: Extreme,
                           fetch: (string, Timeframe) -> Option<seq<Candle>>): seq<string>
  {
    if |batches| == 0 then [] else Hits(batches[0], tf, x, fetch) + HitsOverBatches(batches[1..], tf, x, fetch)
  }

  /** Batching does not change what is found: the batches' results are the flat list's. */
  lemma {:induction false} BatchesScanLikeFlatList(batches: seq<seq<string>>, tf: Timeframe, x: Extreme,
                                                   fetch: (string, Timeframe) -> Option<seq<Candle>>)
    ensures HitsOverBatches(batches, tf, x, fetch) == Hits(Flatten(batches), tf, x, fetch)
  {
    if |batches| > 0 {
      BatchesScanLikeFlatList(batches[1..], tf, x, fetch);
      HitsAppend(batches[0], Flatten(batches[1..]), tf, x, fetch);
    }
  }

  /** A timeframe's results depend only on the frames fetched for that timeframe. */
  lemma {:induction false} TimeframesIsolated(symbols: seq<string>, tf: Timeframe, x: Extreme,
                                              f: (string, Timeframe) -> Option<seq<Candle>>,
                                              g: (string, Timeframe) -> Option<seq<Candle>>)
    requires forall k :: 0 <= k < |symbols| ==> f(symbols[k], tf) == g(symbols[k], tf)
    ensures Hits(symbols, tf, x, f) == Hits(symbols, tf, x, g)
  {
    if |symbols| > 0 {
      TimeframesIsolated(symbols[1..], tf, x, f, g);
    }
  }

  /**
   * A pair whose fetch raises contributes nothing, and every other symbol's
   * entry for that timeframe is unchanged.
   */
  lemma {:induction false} FailedPairIsolated(symbols: seq<string>, tf: Timeframe, x: Extreme,
                                              f: (string, Timeframe) -> Option<seq<Candle>>,
                                              g: (string, Timeframe) -> Option<seq<Candle>>, bad: string)
    requires forall k :: 0 <= k < |symbols| && symbols[k] != bad ==> f(symbols[k], tf) == g(symbols[k], tf)
    requires forall k :: 0 <= k < |symbols| && symbols[k] == bad ==> g(symbols[k], tf) == None
    ensures Hits(symbols, tf, x, g) == Hits(Filter((s: string) => s != bad, symbols), tf, x, f)
  {
    if |symbols| > 0 {
      FailedPairIsolated(symbols[1..], tf, x, f, g, bad);
    }
  }
}

=== FILE: watchlist.dfy ===
/**
 * percobaan.py's watchlist commands: `/addcoin` and `/delcoin` map their
 * first argument to a perpetual symbol and update `WATCHLIST`. Whether the
 * exchange lists the symbol (`symbol_available`) is a parameter.
 */
module Watchlist {
  import opened Seqs
  import opened Market

  /** `WATCHLIST` at start-up. */
  const Initial: seq<string> := ["BTC/USDT:USDT", "ETH/USDT:USDT"]

  function UpperChar(c: char): (u: char)
    ensures 'a' <= c <= 'z' ==> 'A' <= u <= 'Z'
    ensures !('a' <= c <= 'z') ==> u == c
  {
    if 'a' <= c <= 'z' then (c as int - 'a' as int + 'A' as int) as char else c
  }

  /** `str.upper()` on ASCII letters. */
  function Upper(s: string): (r: string)
    ensures |r| == |s|
    ensures forall k :: 0 <= k < |s| ==> r[k] == UpperChar(s[k])
  {
    seq(|s|, k requires 0 <= k < |s| => UpperChar(s[k]))
  }

  /** `f"{context.args[0].upper()}/USDT:USDT"`. */
  function CommandSymbol(arg: string): (sym: string)
    ensures EndsWith(sym, QuoteSuffix)
    ensures |sym| == |arg| + |QuoteSuffix|
    ensures forall k :: 0 <= k < |arg| ==> sym[k] == UpperChar(arg[k])
  {
    var sym := Upper(arg) + QuoteSuffix;
    assert sym[|sym| - |QuoteSuffix|..] == QuoteSuffix;
    sym
  }

  /** The base asset chosen is the same whatever the case the user typed. */
  lemma CaseInsensitive(a: string, b: string)
    requires |a| == |b| && forall k :: 0 <= k < |a| ==> UpperChar(a[k]) == UpperChar(b[k])
    ensures CommandSymbol(a) == CommandSymbol(b)
  {
    assert Upper(a) == Upper(b);
  }

  /**
   * `addcoin`: nothing without an argument; otherwise the symbol is
   * appended when the exchange lists it and it is not already watched.
   */
  function AddCoin(wl: seq<string>, args: seq<string>, available: string -> bool): (r: seq<string>)
    ensures |args| == 0 ==> r == wl
    ensures |args| > 0 && available(CommandSymbol(args[0])) && CommandSymbol(args[0]) !in wl ==>
              r == wl + [CommandSymbol(args[0])]
    ensures |args| > 0 && (!available(CommandSymbol(args[0])) || CommandSymbol(args[0]) in wl) ==> r == wl
    ensures NoDup(wl) ==> NoDup(r)
    ensures forall s :: s in r <==> s in wl || (|args| > 0 && s == CommandSymbol(args[0]) && available(s))
  {
    if |args| == 0 then wl
    else
      var sym := CommandSymbol(args[0]);
      if available(sym) && sym !in wl then wl + [sym] else wl
  }

  /** `list.remove(x)`: drops the first occurrence of `x`. */
  function RemoveFirst(x: string, s: seq<string>): (r: seq<string>)
    ensures x in s ==> |r| == |s| - 1
    ensures x !in s ==> r == s
    ensures multiset(r) == multiset(s) - multiset{x}
  {
    if |s| == 0 then []
    else if s[0] == x then
      assert s == [s[0]] + s[1..];
      s[1..]
    else
      assert s == [s[0]] + s[1..];
      [s[0]] + RemoveFirst(x, s[1..])
  }

  /**
   * On a duplicate-free list, removing the first occurrence is keeping
   * every other entry in order.
   */
  lemma {:induction false} RemoveFirstIsFilter(x: string, s: seq<string>)
    requires NoDup(s)
    ensures RemoveFirst(x, s) == Filter((y: string) => y != x, s)
  {
    if |s| > 0 {
      assert NoDup(s[1..]);
      RemoveFirstIsFilter(x, s[1..]);
      if s[0] == x {
        assert x !in s[1..];
        FilterKeepsAll(x, s[1..]);
      }
    }
  }

  lemma {:induction false} FilterKeepsAll(x: string, s: seq<string>)
    requires x !in s
    ensures Filter((y: string) => y != x, s) == s
  {
    if |s| > 0 {
      FilterKeepsAll(x, s[1..]);
    }
  }

  /** `delcoin`: nothing without an argument; otherwise the symbol is removed when present. */
  function DelCoin(wl: seq<string>, args: seq<string>): (r: seq<string>)
    ensures |args| == 0 ==> r == wl
    ensures |args| > 0 ==> r == RemoveFirst(CommandSymbol(args[0]), wl)
    ensures NoDup(wl) ==> NoDup(r)
    ensures NoDup(wl) && |args| > 0 ==> CommandSymbol(args[0]) !in r
    ensures NoDup(wl) && |args| > 0 ==> r == Filter((y: string) => y != CommandSymbol(args[0]), wl)
  {
    if |args| == 0 then wl
    else
      var sym := CommandSymbol(args[0]);
      assert NoDup(wl) ==> (RemoveFirst(sym, wl) == Filter((y: string) => y != sym, wl)
                            && NoDup(Filter((y: string) => y != sym, wl))) by {
        if NoDup(wl) {
          RemoveFirstIsFilter(sym, wl);
          NoDupFilter(sym, wl);
        }
      }
      if sym in wl then RemoveFirst(sym, wl) else wl
  }

  lemma {:induction false} NoDupFilter(x: string, s: seq<string>)
    requires NoDup(s)
    ensures NoDup(Filter((y: string) => y != x, s))
  {
    if |s| > 0 {
      assert NoDup(s[1..]);
      NoDupFilter(x, s[1..]);
    }
  }

  /** Any sequence of add and delete commands from the start-up list keeps the watchlist duplicate-free. */
  datatype Command = Add(args: seq<string>) | Del(args: seq<string>)

  function Apply(wl: seq<string>, cmds: seq<Command>, available: string -> bool): (r: seq<string>)
    ensures NoDup(wl) ==> NoDup(r)
    decreases |cmds|
  {
    if |cmds| == 0 then wl
    else
      var next := match cmds[0]
        case Add(args) => AddCoin(wl, args, available)
        case Del(args) => DelCoin(wl, args);
      Apply(next, cmds[1..], available)
  }

  lemma InitialHasNoDuplicates(cmds: seq<Command>, available: string -> bool)
    ensures NoDup(Apply(Initial, cmds, available))
  {
  }
}

=== FILE: wrappers.dfy ===
/** Failure-carrying values shared by the whole model. */
module Wrappers {

  /** A value that may be absent: pandas NaN, a failed fetch, a Python `None`. */
  datatype Option<+T> = None | Some(value: T) {

    /** Returns the value encapsulated in Some or a default value if None. */
    function GetOr(default: T): T {
      match this
      case Some(v) => v
      case None => default
    }
  }

  /** The outcome of a Python call that either returns or raises. */
  datatype Result<+R, +E> = Success(value: R) | Failure(error: E)
}
